=== FILE: README.md ===
# TechFusion deal pipeline in Dafny

This project models the deal-decision pipeline of the TechFusion M&A
simulation. Synthetic target companies are valued against a drifting market.
Each acquirer looks for a target in its focus sectors and applies its proposal
gate. A financial buyer needs a profitable target and cheap money. A strategic
acquirer needs a low integration complexity. A proposed deal is priced from
the target's valuation, a negotiated premium and a synergy premium. A
regulator then approves it, or blocks it if it is large and in a sensitive
sector. An approved deal is recorded, and its target leaves the pool of
available companies.

Every rule is a pure function over Dafny `real`s, sets and datatypes.

- Randomness: every call of Python's `random` module becomes an explicit draw of type `Draws.Unit`, a real in [0, 1).
- `random.uniform(lo, hi)` is `lo + (hi - lo) * u`, which is how Python defines it.
- `random.choice` over `n` candidates picks index `floor(u * n)`.
- Rounding: `round(x, 2)` is modelled exactly on the real value, as round-half-to-even to cents (`Rounding.Round2`).

Modules follow the source files:

| module | source |
|---|---|
| `Draws`, `Rounding`, `Wrappers` | injected draws, `round`, optional values |
| `Records` | company and acquirer records (`market/participants.py`, the company schema) |
| `Environment` | `market/environment.py` |
| `Valuation` | `market/valuation.py` |
| `Integration` | `analytics/integration.py` |
| `Synergy` | `analytics/synergy.py` |
| `Deals` | `simulation/deal.py` |
| `Regulatory` | `simulation/regulatory.py` |
| `Engine` | `simulation/engine.py` |
| `Arithmetic` | facts about real arithmetic and set sizes that the proofs use; no source file |

Behaviour of the code that a reader might not expect, which the model keeps:

- A deal's status is set to "proposed" at construction (`simulation/deal.py:13`). The comment on that line also lists accepted, failed and closed, but no code sets them, not even when the engine closes the deal.
- An acquirer whose type is neither "Strategic" nor "Financial" proposes nothing, because the gate in `simulation/engine.py:70-82` has no other branch (`AcquirerKind.Other`).
- The synergy scorer guards its division with the emptiness of the matches, not of the needs. An empty need set always yields the short zero result.
- Sector matching for targets is substring containment (`Engine.Contains`): a focus of "Tech" selects "Marketing Tech". Sensitive-sector and multiplier-table lookups are exact equality.
- Deal construction treats every non-financial acquirer as strategic for the negotiated premium.

## Model

| member | source | states |
|---|---|---|
| `Draws.Uniform` | tech_fusion/src/market/environment.py:6 | a uniform draw over [lo, hi) always lies in [lo, hi) |
| `Draws.UniformReaches` | tech_fusion/src/market/environment.py:6 | every value of [lo, hi) is the outcome of some draw, so the range is exact |
| `Draws.ChoiceReaches` | tech_fusion/src/simulation/engine.py:46 | every candidate index is chosen by some draw |
| `Draws.ChoiceIndex` | tech_fusion/src/simulation/engine.py:46 | the chosen index is always a valid position among the candidates |
| `Rounding.RoundHalfEven` | tech_fusion/src/analytics/integration.py:53 | the integer is within one half of its argument, and an exact tie goes to the even integer |
| `Rounding.RoundHalfEvenNearest` | tech_fusion/src/analytics/integration.py:53 | no integer is closer to the argument than the rounded one |
| `Rounding.Round2` | tech_fusion/src/analytics/integration.py:53 | `round(x, 2)` is a whole number of cents within half a cent of x |
| `Rounding.Round2Nearest` | tech_fusion/src/analytics/integration.py:53 | no whole number of cents is closer to x than `round(x, 2)` |
| `Rounding.Round2Monotone` | tech_fusion/src/analytics/integration.py:53 | rounding to cents never reverses an order |
| `Rounding.Round2Within` | tech_fusion/src/analytics/integration.py:53 | bounds that are whole cents survive rounding |
| `Environment.Init` | tech_fusion/src/market/environment.py:5-12 | the initial rate lies in [0.01, 0.05), inside the clamp band, and the sentiment starts neutral |
| `Environment.Clamp` | tech_fusion/src/market/environment.py:18 | the clamped rate always lies in [0.005, 0.08], and a rate already in the band is unchanged |
| `Environment.SentimentFor` | tech_fusion/src/market/environment.py:20-27 | bull iff roll < 0.1, bear iff 0.1 <= roll < 0.2, neutral iff roll >= 0.2 |
| `Environment.Moved` | tech_fusion/src/market/environment.py:17 | a non-negative rate scaled by a factor in [0.95, 1.05] stays within 5% of itself |
| `Environment.Update` | tech_fusion/src/market/environment.py:14-27 | after any update the rate is in the band; from an in-band rate it moves by at most 5% either way |
| `Environment.UpdateRate` | tech_fusion/src/market/environment.py:16-18 | when the drifted rate (old rate times a uniform factor in [0.95, 1.05)) is in the band, the clamp leaves it alone and it is the new rate |
| `Environment.UpdateReaches` | tech_fusion/src/market/environment.py:16-18 | from a positive rate, every in-band rate in [0.95 × rate, 1.05 × rate) is the new rate for some factor draw, so the drift covers exactly that range |
| `Environment.SentimentMultiplier` | tech_fusion/src/market/environment.py:8-12 | the lookup is total: bull 1.2, neutral 1.0, bear 0.8; 1 only for neutral and above 1 only for bull |
| `Environment.UpdatedMultiplier` | tech_fusion/src/market/environment.py:20-33 | after an update the multiplier is 1.2 iff the roll is below 0.1, 0.8 iff it is in [0.1, 0.2) and 1.0 iff it is at least 0.2, whatever the previous market |
| `Environment.UpdateAll` | tech_fusion/src/market/environment.py:14-27 | no updates leave the market as it is; after any run the sentiment is the one the last roll selects |
| `Environment.UpdateAllKeepsBand` | tech_fusion/src/market/environment.py:14-18 | the rate band is preserved by any number of updates |
| `Valuation.MultiplierRange` | tech_fusion/src/market/valuation.py:5-28 | a listed sector uses its table range, any other sector uses [5, 12); every range lies within [5, 45] |
| `Valuation.BaseMultiplier` | tech_fusion/src/market/valuation.py:25-28 | the base multiple lies in the sector's range, hence in [5, 45) |
| `Valuation.Tier` | tech_fusion/src/market/valuation.py:30-37 | high iff rate > 0.20, medium iff 0.10 <= rate <= 0.20, low iff rate < 0.10 (negative rates included) |
| `Valuation.TierRange` | tech_fusion/src/market/valuation.py:16-20 | high growth (1.1, 1.3), medium (0.9, 1.1), low (0.7, 0.9); all within [0.7, 1.3] |
| `Valuation.GrowthAdjustment` | tech_fusion/src/market/valuation.py:30-38 | the adjustment lies in its tier's range: at least 1.1 above 20% growth, below 0.9 under 10% |
| `Valuation.GrowthAdjustmentOrdered` | tech_fusion/src/market/valuation.py:16-38 | a company in a higher growth tier always gets a strictly larger adjustment, whatever the two draws |
| `Valuation.TalentPremium` | tech_fusion/src/market/valuation.py:50-52 | no premium unless there are more than 100 AI/ML experts (exactly 100 gives none); otherwise it lies in [0.1, 0.3) |
| `Valuation.Compose` | tech_fusion/src/market/valuation.py:54-58 | the drawn factors are reported as given, and the valuation is ARR times the final multiplier |
| `Valuation.ExactValuation` | tech_fusion/src/market/valuation.py:40-58 | the base multiple is in the sector's range, the growth adjustment in the tier's range, the sentiment factor is the market's and the talent premium follows the expert rule |
| `Valuation.ComposeFactors` | tech_fusion/src/market/valuation.py:56-66 | the reported final multiplier includes the talent premium, valuation = ARR x final multiplier, and the multiplier lies in [2.8, 91.26) |
| `Valuation.ExactValuationFactors` | tech_fusion/src/market/valuation.py:40-58 | for every company and market, valuation = ARR x final multiplier with the multiplier in [2.8, 91.26) |
| `Valuation.CalculateValuation` | tech_fusion/src/market/valuation.py:60-66 | the stored valuation, base multiple, growth adjustment, talent premium and final multiplier are each a whole number of cents within half a cent of the exact one; the sentiment factor is unrounded; ARR >= 0 gives a non-negative valuation |
| `Valuation.ValuationMonotoneInArr` | tech_fusion/src/market/valuation.py:56-61 | with the same draws, a larger ARR never gives a smaller stored valuation |
| `Integration.TechStackScore` | tech_fusion/src/analytics/integration.py:14-19 | the score lies in [0, 100]; it is 0 iff the stacks are equal as sets (so also for two empty stacks) and 100 iff they are disjoint and not both empty |
| `Integration.TechStackSymmetric` | tech_fusion/src/analytics/integration.py:16-19 | the tech-stack score does not depend on which stack is the acquirer's |
| `Integration.LexLess` | tech_fusion/src/analytics/integration.py:27 | Python's string `<`: irreflexive, and a proper prefix comes first |
| `Integration.LexLessTotal` | tech_fusion/src/analytics/integration.py:27 | Python's string order is total and asymmetric on distinct strings |
| `Integration.SortedPair` | tech_fusion/src/analytics/integration.py:27 | the key holds the two cultures, in non-decreasing order |
| `Integration.SortedPairSymmetric` | tech_fusion/src/analytics/integration.py:27 | the sorted-pair key does not depend on argument order |
| `Integration.TeamCultureScore` | tech_fusion/src/analytics/integration.py:21-28 | the score is one of 0, 30, 50, 80; 0 iff the cultures are equal; 80 iff the pair is {agile, hierarchical}; 50 iff it is {remote-first, sales-driven} |
| `Integration.TeamCultureSymmetric` | tech_fusion/src/analytics/integration.py:27-28 | the culture score is symmetric |
| `Integration.ArchitectureScore` | tech_fusion/src/analytics/integration.py:30-36 | 0 iff equal; 90 iff the pair is {microservices, monolith} in either order; 40 for every other mismatch |
| `Integration.WeightedScore` | tech_fusion/src/analytics/integration.py:8-12 | the sum weighs tech stack, culture and architecture by 0.5/0.3/0.2; it lies in [0, 92], is 0 iff the profiles are identical and 92 iff the stacks are disjoint, the cultures are agile against hierarchical and the architectures microservices against monolith |
| `Integration.CalculateScore` | tech_fusion/src/analytics/integration.py:47-53 | the reported score is a whole number of cents within half a cent of the weighted sum (so a sum of 64.995 is reported as 65); it lies in [0, 92] and is 0 for identical profiles |
| `Integration.CalculateScoreSymmetric` | tech_fusion/src/analytics/integration.py:38-53 | swapping acquirer and target profiles leaves the score unchanged |
| `Synergy.MatchRatio` | tech_fusion/src/analytics/synergy.py:19-25 | the ratio lies in [0, 1]; it is 0 iff no need is met and 1 iff every need is met |
| `Synergy.CalculateSynergy` | tech_fusion/src/analytics/synergy.py:6-35 | non-strategic acquirers and empty matches give score 0, premium 0 and no matched assets; otherwise the matched assets are exactly needs ∩ assets, the score is in [0, 1] and the premium lies within half a cent of [0.2, 0.4] times the match ratio |
| `Synergy.Premium` | tech_fusion/src/analytics/synergy.py:29 | the unrounded premium lies between 0.2 and 0.4 times the match ratio |
| `Synergy.PremiumIsScaledRatio` | tech_fusion/src/analytics/synergy.py:25-33 | with needs met, the premium is the rounded match ratio times the [0.2, 0.4) draw |
| `Synergy.SynergyInCents` | tech_fusion/src/analytics/synergy.py:31-33 | the reported score and premium are whole numbers of cents |
| `Synergy.ScoreIsMatchRatio` | tech_fusion/src/analytics/synergy.py:25-32 | the score is the rounded fraction of the acquirer's needs that are met, whatever the premium draw |
| `Synergy.FullMatchScoresOne` | tech_fusion/src/analytics/synergy.py:19-34 | meeting every need of a nonempty need set scores exactly 1, with all the needs as matched assets |
| `Synergy.RatioMonotone` | tech_fusion/src/analytics/synergy.py:19-25 | more assets never lower the fraction of needs met |
| `Synergy.ScoreMonotoneInAssets` | tech_fusion/src/analytics/synergy.py:16-25 | adding an asset to the target never lowers the synergy score |
| `Deals.StructureFor` | tech_fusion/src/simulation/deal.py:18-26 | cash iff roll < 0.5, stock iff 0.5 <= roll < 0.8, hybrid iff roll >= 0.8: total over [0, 1) |
| `Deals.NegotiatedPremium` | tech_fusion/src/simulation/deal.py:28-34 | [0.10, 0.25) for financial buyers, [0.15, 0.30) for every other kind |
| `Deals.NewDeal` | tech_fusion/src/simulation/deal.py:7-16 | base valuation is the target's current valuation; status is proposed; final price = base x (1 + negotiated + synergy premium); financial buyers get no synergy premium; a non-negative base gives 1.1 x base <= price <= 1.7 x base |
| `Deals.NewDealParts` | tech_fusion/src/simulation/deal.py:11-14 | the deal's synergy details are the synergy scorer's result for the pair, its structure is the one the structure roll selects, and its negotiated premium is the one for the acquirer's kind |
| `Deals.Price` | tech_fusion/src/simulation/deal.py:16 | a non-negative base times a premium factor in [1.1, 1.7] lies between 1.1 and 1.7 times the base |
| `Deals.PriceAtLeastBase` | tech_fusion/src/simulation/deal.py:16 | with a non-negative base the price is never below the base valuation |
| `Regulatory.ReviewDeal` | tech_fusion/src/simulation/regulatory.py:19-44 | blocked iff the deal is sensitive, strictly above the threshold and the roll is below the block probability; an unreviewed deal is approved for not meeting the criteria |
| `Regulatory.UnreviewedIgnoresDraw` | tech_fusion/src/simulation/regulatory.py:29-34 | the verdict on an unreviewed deal does not depend on the draw |
| `Regulatory.ThresholdIsStrict` | tech_fusion/src/simulation/regulatory.py:30 | a price equal to the threshold is never reviewed |
| `Regulatory.ZeroProbabilityApprovesAll` | tech_fusion/src/simulation/regulatory.py:39 | with block probability 0 every deal is approved |
| `Regulatory.InsensitiveSectorApproved` | tech_fusion/src/simulation/regulatory.py:6-34 | under the defaults (0.15, 5,000,000,000) a SaaS deal of 6,000,000,000 is approved without review |
| `Engine.Contains` | tech_fusion/src/simulation/engine.py:39 | Python's `in` on strings: the empty string is in every string, and a contained string is no longer than its container |
| `Engine.ContainsAt` | tech_fusion/src/simulation/engine.py:39 | an occurrence of the focus at any offset of the sector makes it contained |
| `Engine.ContainsWitness` | tech_fusion/src/simulation/engine.py:39 | a contained focus occurs at some offset of the sector |
| `Engine.FocusOccurs` | tech_fusion/src/simulation/engine.py:39 | some focus entry is contained in the sector iff some focus entry occurs in it at some offset |
| `Engine.FocusMatchesBySubstring` | tech_fusion/src/simulation/engine.py:39 | an acquirer whose only focus is "Tech" matches every company in the sector "Marketing Tech", which is not equal to its focus |
| `Engine.Matches` | tech_fusion/src/simulation/engine.py:39-40 | a company matches iff the acquirer carries the wildcard focus or some focus entry occurs as a substring of the company's sector; so a focus equal to the sector matches and an empty focus never does |
| `Engine.Candidates` | tech_fusion/src/simulation/engine.py:36-40 | the candidates are exactly the pool companies that match the acquirer |
| `Engine.FindTarget` | tech_fusion/src/simulation/engine.py:34-46 | no target iff no pool company matches; otherwise a matching pool member |
| `Engine.FindTargetReaches` | tech_fusion/src/simulation/engine.py:45-46 | every matching company is chosen by some draw |
| `Engine.WillPropose` | tech_fusion/src/simulation/engine.py:70-82 | another kind never proposes; a financial buyer never proposes to an unprofitable target or at a rate of 4% or more; a strategic acquirer always proposes to its own integration profile |
| `Engine.IdenticalProfilesPropose` | tech_fusion/src/simulation/engine.py:76-80 | a strategic acquirer always proposes to a target with its own integration profile |
| `Engine.FinancialGate` | tech_fusion/src/simulation/engine.py:70-74 | a financial buyer with a target declines iff the target's EBITDA margin is not positive or the rate is not below 0.04 |
| `Engine.StrategicGate` | tech_fusion/src/simulation/engine.py:76-82 | a strategic acquirer with a target declines iff the integration score is at least 65 |
| `Engine.Evaluate` | tech_fusion/src/simulation/engine.py:61-97 | no target iff none matches; a declined target fails the gate; a proposed deal is built from a matching pool member and closes iff approved; an acquirer of another kind never proposes |
| `Engine.Remove` | tech_fusion/src/simulation/engine.py:95 | removal drops the first equal element and keeps the order of the rest |
| `Engine.RemoveDropsOnlyTarget` | tech_fusion/src/simulation/engine.py:95 | with distinct identities, removal drops exactly the target's identity from the pool |
| `Engine.Record` | tech_fusion/src/simulation/engine.py:89-97 | an acquisition appends the deal and removes its target; any other outcome leaves pool and closed deals unchanged; the invariant and pool + closed count are kept |
| `Engine.RecordKeepsConsistent` | tech_fusion/src/simulation/engine.py:94-95 | a close keeps identities distinct, keeps closed targets out of the pool and moves exactly one identity from pool to closed |
| `Engine.TakeTurn` | tech_fusion/src/simulation/engine.py:61-95 | one turn keeps the invariant and conserves the count and the identities; it appends a deal iff the turn ends in an approved proposal, and that deal is the turn's own, on a matching pool member that passed the gate; a turn without acquisition leaves pool and closed deals exactly as they were |
| `Engine.StepAcquirers` | tech_fusion/src/simulation/engine.py:53-102 | the acquirer loop conserves pool size + closed deals and the identities across them, never closes a target twice, stops at an empty pool, and every appended deal is one that some acquirer's turn proposed past its gate and the regulator approved with that turn's draws; `Engine.StepAcquirersSnoc` gives the loop as a left fold of turns |
| `Engine.StepAcquirersSnoc` | tech_fusion/src/simulation/engine.py:57-59 | with no acquirers the loop changes nothing; with one more acquirer at the end, that acquirer takes its turn on the pool and deals the others left, unless the pool is already empty. A close does not end the loop |
| `Engine.StepClosesNothing` | tech_fusion/src/simulation/engine.py:57-97 | the acquirer loop closes nothing iff no acquirer's turn, taken on the starting pool with its own draws, ends in an acquisition |
| `Engine.NoneAcquiresEach` | tech_fusion/src/simulation/engine.py:57-97 | "no turn acquires" holds iff each single turn on the starting pool does not end in an acquisition |
| `Engine.NoneAcquiresOnEmpty` | tech_fusion/src/simulation/engine.py:57-59 | on an empty pool no turn acquires |
| `Engine.Revalue` | tech_fusion/src/simulation/engine.py:48-51 | every company is valued afresh against the current market and nothing else about it changes |
| `Engine.NewSimulation` | tech_fusion/src/simulation/engine.py:14-29 | the initial pool has one entry per generated company, with identity equal to its position and details valued against the initial market; the pool is consistent, the rate in band, the sentiment neutral and no deals are closed |
| `Engine.RevalueKeepsBookkeeping` | tech_fusion/src/simulation/engine.py:48-51 | revaluation keeps every identity and the bookkeeping invariant |
| `Engine.RunStep` | tech_fusion/src/simulation/engine.py:114-116 | market update, then revaluation, then the acquirer loop: every remaining company and every new deal's target carries details computed against the updated market, every new deal passed its gate under that market and was approved, the rate stays in band, and the invariant and the count are kept; no deal closes iff no acquirer's turn on the revalued pool acquires; `Engine.RunStepLastTurn` gives the turn each further acquirer takes |
| `Engine.RunStepLastTurn` | tech_fusion/src/simulation/engine.py:57-59 | a run step with one more acquirer has the same market; it is the shorter step when that step left the pool empty, and otherwise the shorter step followed by the new acquirer's turn |
| `Engine.StepExtendsRun` | tech_fusion/src/simulation/engine.py:109-116 | step j of a run brings the market to the starting market after j + 1 updates, and every deal it closes was closed in step j against that market |
| `Environment.UpdateAllThenUpdate` | tech_fusion/src/market/environment.py:14-27 | one more update after a run of updates is the run extended by that update |
| `Engine.StepExtendsHistory` | tech_fusion/src/simulation/engine.py:109-116 | a run step continues a history of j steps to one of j + 1: the market has one more update, deals closed before stay closed in an earlier step, and new ones are closed in step j |
| `Engine.AdvanceRun` | tech_fusion/src/simulation/engine.py:109-116 | one pass of the loop is a run step: it extends the history, keeps the invariant, conserves count and identities, keeps the band, and the rest of the run from the new state equals the rest of the run from the old one |
| `Engine.RunFullSimulation` | tech_fusion/src/simulation/engine.py:106-116 | the final state and the step count equal `Engine.RunSteps`, the reference definition: one run step per draw, in order, until the steps run out or the pool is empty. The loop runs `ran` <= steps steps and stops early only on an empty pool (no step runs on an empty starting pool); the market is the starting market after exactly `ran` updates; every new closed deal was closed in one of those steps against that step's market; no target is acquired twice, pool + closed count and identities are conserved, and the rate band is kept |
| `Engine.SingleMatchScenario` | tech_fusion/src/simulation/engine.py:57-95 | a strategic acquirer that needs the only SaaS target's single asset, with an identical profile, closes exactly one deal with score 1 and that asset matched |

## Left out

- Random number generation: every draw is a parameter; `random.choice` is abstracted to `floor(u * n)` rather than Python's integer `_randbelow`.
- Floating point: all quantities are exact reals. `round(x, 2)` is applied to the exact value, so ties and binary representation effects of IEEE doubles are not modelled.
- Printing, logging, `summarize_deals`, the report generator and its CSV output, and the `__main__` demo blocks.
- Company generation (`company_generator.py`): companies are inputs. Only the fields the pipeline reads are kept: name, sector, ARR, growth rate, EBITDA margin, AI/ML experts, assets and integration factors.
- The company's burn rate and runway, and its market-position, team and operations metrics except the AI/ML expert count: the pipeline never reads them.
- The participant fixtures, advisors, `synergy_potential` and `dry_powder_b`: these are sample data or informational values the pipeline never reads.
- Tech stacks, needs and assets are sets. The source builds sets from lists, and `matched_assets` is a list built from a set, so its order is unspecified anyway.
- Object identity is an `id` field assigned by position at construction. `list.remove` also removes a different record that is equal by value, which cannot happen once identities differ.
- A missing `valuation_details` makes the source raise `KeyError`; `Deals.NewDeal` requires it instead, and the engine always revalues before matching.
- The engine's default arguments (100 companies, 5 steps) are parameters of the model.
- `Valuation.ExactValuationFactors`: leaves out the product identity for the final multiplier, which `Valuation.ComposeFactors` states on the factors themselves.

=== FILE: arithmetic.dfy ===
/** Small facts about real multiplication and division, and about set sizes, each proved in isolation. */
module Arithmetic {

  lemma PositiveProduct(a: real, b: real)
    requires a > 0.0 && b > 0.0
    ensures a * b > 0.0
  {
  }

  lemma NonNegativeProduct(a: real, b: real)
    requires a >= 0.0 && b >= 0.0
    ensures a * b >= 0.0
  {
  }

  /** Scaling a positive width by a unit fraction stays within the width. */
  lemma ScaledBelow(w: real, u: real)
    requires w > 0.0 && 0.0 <= u < 1.0
    ensures 0.0 <= w * u < w
  {
    NonNegativeProduct(w, u);
    PositiveProduct(w, 1.0 - u);
    assert w * (1.0 - u) == w - w * u;
  }

  lemma ScaleBetween(x: real, f: real, lo: real, hi: real)
    requires x >= 0.0 && lo <= f <= hi
    ensures lo * x <= x * f <= hi * x
  {
    NonNegativeProduct(x, f - lo);
    NonNegativeProduct(x, hi - f);
    assert x * f - lo * x == x * (f - lo);
    assert hi * x - x * f == x * (hi - f);
  }

  lemma ScaleMonotone(a1: real, a2: real, f: real)
    requires a1 <= a2 && f >= 0.0
    ensures a1 * f <= a2 * f
  {
    NonNegativeProduct(a2 - a1, f);
    assert a2 * f - a1 * f == (a2 - a1) * f;
  }

  lemma FractionBelowOne(a: real, b: real)
    requires 0.0 <= a < b
    ensures 0.0 <= a / b < 1.0
  {
    var q := a / b;
    assert q * b == a;
    if q < 0.0 {
      PositiveProduct(-q, b);
    }
    if q >= 1.0 {
      NonNegativeProduct(q - 1.0, b);
    }
  }

  /** A quotient is one exactly when numerator and denominator agree. */
  lemma QuotientIsOne(a: real, b: real)
    requires b > 0.0
    ensures a / b == 1.0 <==> a == b
  {
    assert (a / b) * b == a;
  }

  /** A quotient by a positive denominator keeps the order of the numerators. */
  lemma QuotientMonotone(a1: real, a2: real, b: real)
    requires a1 <= a2 && b > 0.0
    ensures a1 / b <= a2 / b
  {
    var d := a2 / b - a1 / b;
    assert d * b == a2 - a1;
    if d < 0.0 {
      PositiveProduct(-d, b);
    }
  }

  /** A quotient by a positive denominator of a numerator in [lo * b, hi * b) lies in [lo, hi). */
  lemma QuotientBetween(a: real, b: real, lo: real, hi: real)
    requires b > 0.0 && lo * b <= a < hi * b
    ensures lo <= a / b < hi
  {
    var q := a / b;
    assert q * b == a;
    if q < lo {
      PositiveProduct(lo - q, b);
      assert (lo - q) * b == lo * b - q * b;
    }
    if q >= hi {
      NonNegativeProduct(q - hi, b);
    }
  }

  lemma Associative(a: real, b: real, c: real)
    ensures a * b * c == a * (b * c)
  {
  }

  /** A subset is no larger than its superset, and equally large only when equal. */
  lemma SubsetCardinality<T>(a: set<T>, b: set<T>)
    requires a <= b
    ensures |a| <= |b|
    ensures |a| == |b| ==> a == b
  {
    assert b == a + (b - a);
    if |a| == |b| {
      assert |b - a| == 0;
    }
  }
}

=== FILE: deal.dfy ===
/** Deal construction: a frozen base valuation, a structure, a negotiated premium and a price. */
module Deals {
  import opened Arithmetic
  import opened Draws
  import opened Records
  import opened Synergy

  datatype Structure = AllCash | AllStock | Hybrid

  /** The statuses the deal record names; construction sets `Proposed` and nothing changes it later. */
  datatype DealStatus = Proposed | Accepted | Failed | Closed

  /** The draws one deal consumes: the synergy premium scale, the structure roll, the premium. */
  datatype DealDraws = DealDraws(synergy: Unit, structure: Unit, premium: Unit)

  datatype Deal = Deal(
    acquirer: Acquirer,
    target: Company,
    baseValuation: real,
    synergy: SynergyDetails,
    structure: Structure,
    status: DealStatus,
    negotiatedPremium: real,
    synergyPremium: real,
    finalPrice: real)

  /**
   * The price composition every deal record satisfies: the base valuation
   * times one plus the negotiated and synergy premiums.
   */
  predicate PriceComposed(d: Deal)
  {
    && d.synergyPremium == d.synergy.premium
    && d.finalPrice == Price(d.baseValuation, 1.0 + d.negotiatedPremium + d.synergyPremium)
  }

  /** The structure a roll selects: cash below 0.5, stock on [0.5, 0.8), hybrid from 0.8. */
  function StructureFor(roll: Unit): (s: Structure)
    ensures s == AllCash <==> roll < 0.5
    ensures s == AllStock <==> 0.5 <= roll < 0.8
    ensures s == Hybrid <==> 0.8 <= roll
  {
    if roll < 0.5 then AllCash
    else if roll < 0.8 then AllStock
    else Hybrid
  }

  /** The negotiated premium: [10%, 25%) for financial buyers, [15%, 30%) for every other kind. */
  function NegotiatedPremium(kind: AcquirerKind, u: Unit): (r: real)
    ensures kind.Financial? ==> 0.10 <= r < 0.25
    ensures !kind.Financial? ==> 0.15 <= r < 0.30
  {
    if kind.Financial? then Uniform(0.10, 0.25, u) else Uniform(0.15, 0.30, u)
  }

  /**
   * `Deal(acquirer, target)`. The target must already carry valuation
   * details; the base valuation is a snapshot of them.
   */
  function NewDeal(acquirer: Acquirer, target: Company, d: DealDraws): (deal: Deal)
    requires target.valuation.Some?
    ensures deal.acquirer == acquirer && deal.target == target
    ensures deal.baseValuation == target.valuation.value.valuation
    ensures deal.status == Proposed
    ensures PriceComposed(deal)
    ensures acquirer.kind.Financial? ==>
              && deal.synergyPremium == 0.0
              && 0.10 <= deal.negotiatedPremium < 0.25
              && deal.finalPrice == Price(deal.baseValuation, 1.0 + deal.negotiatedPremium)
    ensures !acquirer.kind.Financial? ==> 0.15 <= deal.negotiatedPremium < 0.30
    ensures 0.0 <= deal.synergyPremium <= 0.4
    ensures deal.baseValuation >= 0.0 ==>
              deal.baseValuation * 1.1 <= deal.finalPrice <= deal.baseValuation * 1.7
  {
    var base := target.valuation.value.valuation;
    var synergy := CalculateSynergy(acquirer, target, d.synergy);
    var negotiated := NegotiatedPremium(acquirer.kind, d.premium);
    var price := Price(base, 1.0 + negotiated + synergy.premium);
    Deal(acquirer, target, base, synergy, StructureFor(d.structure), Proposed, negotiated, synergy.premium, price)
  }

  /**
   * Each part of a deal comes from its own rule: the synergy details from the
   * synergy scorer, the structure from the structure roll and the negotiated
   * premium from the acquirer's kind.
   */
  lemma NewDealParts(acquirer: Acquirer, target: Company, d: DealDraws)
    requires target.valuation.Some?
    ensures var deal := NewDeal(acquirer, target, d);
      && deal.synergy == CalculateSynergy(acquirer, target, d.synergy)
      && deal.structure == StructureFor(d.structure)
      && deal.negotiatedPremium == NegotiatedPremium(acquirer.kind, d.premium)
  {
  }

  /** The base valuation times the premium factor; a factor in [1.1, 1.7] keeps the price within those multiples. */
  function Price(base: real, factor: real): (r: real)
    ensures base >= 0.0 && 1.1 <= factor <= 1.7 ==> base * 1.1 <= r <= base * 1.7
  {
    assert base >= 0.0 && 1.1 <= factor <= 1.7 ==> base * 1.1 <= base * factor <= base * 1.7 by {
      if base >= 0.0 && 1.1 <= factor <= 1.7 {
        ScaleBetween(base, factor, 1.1, 1.7);
      }
    }
    base * factor
  }

  /** With a non-negative base, the price is never below the base valuation. */
  lemma PriceAtLeastBase(acquirer: Acquirer, target: Company, d: DealDraws)
    requires target.valuation.Some? && target.valuation.value.valuation >= 0.0
    ensures NewDeal(acquirer, target, d).finalPrice >= target.valuation.value.valuation
  {
    var deal := NewDeal(acquirer, target, d);
    assert deal.finalPrice >= deal.baseValuation * 1.1;
    NonNegativeProduct(deal.baseValuation, 0.1);
  }
}

=== FILE: draws.dfy ===
/**
 * Injected randomness. The simulation draws from Python's global `random`
 * stream; here every draw is an explicit argument, so each scoring rule is a
 * pure function of its inputs and of the draws it consumes.
 */
module Draws {
  import opened Arithmetic

  /** One value of `random.random()`: a real in the half-open unit interval. */
  type Unit = u: real | 0.0 <= u < 1.0

  /** A unit draw scaling a positive width: the offset stays inside the width. */
  function Scaled(width: real, u: Unit): (r: real)
    requires width > 0.0
    ensures 0.0 <= r < width
  {
    ScaledBelow(width, u);
    width * u
  }

  /** `random.uniform(lo, hi)`, which Python computes as `lo + (hi - lo) * random()`. */
  function Uniform(lo: real, hi: real, u: Unit): (r: real)
    requires lo < hi
    ensures lo <= r < hi
  {
    lo + Scaled(hi - lo, u)
  }

  /** Every value of [lo, hi) is the outcome of some draw: the range above is exact. */
  lemma UniformReaches(lo: real, hi: real, x: real)
    requires lo <= x < hi
    ensures exists u: Unit :: Uniform(lo, hi, u) == x
  {
    var u := (x - lo) / (hi - lo);
    assert u * (hi - lo) == x - lo;
    FractionBelowOne(x - lo, hi - lo);
    assert Uniform(lo, hi, u) == x;
  }

  /** `random.choice` over `n` candidates: the index the draw selects. */
  function ChoiceIndex(u: Unit, n: nat): (k: nat)
    requires n > 0
    ensures k < n
  {
    Scaled(n as real, u).Floor
  }

  /** Every candidate can be chosen: the draw k/n selects index k. */
  lemma ChoiceReaches(n: nat, k: nat)
    requires k < n
    ensures 0.0 <= k as real / n as real < 1.0
    ensures ChoiceIndex(k as real / n as real, n) == k
  {
    var u := k as real / n as real;
    FractionBelowOne(k as real, n as real);
    assert u * n as real == k as real;
  }
}

=== FILE: engine.dfy ===
/**
 * The simulation engine. A run step updates the market, revalues every
 * remaining target, then gives each acquirer in turn one chance to find,
 * propose and close a deal. The engine owns the pool of available targets and
 * the list of closed deals: a close moves a target from the one to the other.
 */
module Engine {
  import opened Wrappers
  import opened Draws
  import opened Records
  import opened Environment
  import opened Valuation
  import opened Integration
  import opened Deals
  import opened Regulatory
  import Synergy

  /** A focus entry that makes an acquirer accept targets of every sector. */
  const Wildcard: string := "High-Growth Tech"

  /** Financial buyers propose only while the interest rate is below this. */
  const FinancialRateCeiling: real := 0.04

  /** Strategic acquirers propose only below this integration complexity. */
  const ComplexityCeiling: real := 65.0

  // ---------------------------------------------------------------------------
  // Target matching

  predicate IsPrefix(p: string, s: string)
  {
    |p| <= |s| && s[..|p|] == p
  }

  /** Python's `sub in s` on strings: substring containment, not equality. */
  function Contains(s: string, sub: string): (r: bool)
    ensures |sub| == 0 ==> r
    ensures r ==> |sub| <= |s|
    decreases |s|
  {
    IsPrefix(sub, s) || (|s| > 0 && Contains(s[1..], sub))
  }

  /** `sub` occurs in `s` starting at offset `i`. */
  predicate OccursAt(s: string, sub: string, i: nat)
  {
    i + |sub| <= |s| && s[i..i + |sub|] == sub
  }

  /** An occurrence at any offset is found. */
  lemma {:induction false} ContainsAt(s: string, sub: string, i: nat)
    requires OccursAt(s, sub, i)
    ensures Contains(s, sub)
    decreases i
  {
    if i == 0 {
      assert IsPrefix(sub, s);
    } else {
      assert s[1..][i - 1..i - 1 + |sub|] == s[i..i + |sub|];
      ContainsAt(s[1..], sub, i - 1);
    }
  }

  /** Whatever is found occurs at some offset. */
  lemma {:induction false} ContainsWitness(s: string, sub: string) returns (i: nat)
    requires Contains(s, sub)
    ensures OccursAt(s, sub, i)
    decreases |s|
  {
    if IsPrefix(sub, s) {
      i := 0;
    } else {
      var t := s[1..];
      var j := ContainsWitness(t, sub);
      i := j + 1;
      var here, there := s[i..i + |sub|], t[j..j + |sub|];
      assert forall k :: 0 <= k < |sub| ==> here[k] == there[k];
      assert here == there;
    }
  }

  /** Some focus entry is contained in the sector iff some focus entry occurs in it at some offset. */
  lemma FocusOccurs(focus: seq<string>, sector: string)
    ensures (exists f :: f in focus && Contains(sector, f))
        <==> (exists f, i: nat :: f in focus && OccursAt(sector, f, i))
  {
    if exists f :: f in focus && Contains(sector, f) {
      var f :| f in focus && Contains(sector, f);
      var i := ContainsWitness(sector, f);
    }
    if exists f, i: nat :: f in focus && OccursAt(sector, f, i) {
      var f, i: nat :| f in focus && OccursAt(sector, f, i);
      ContainsAt(sector, f, i);
    }
  }

  /** A focus entry matches every sector that contains it: "Tech" selects "Marketing Tech". */
  lemma FocusMatchesBySubstring(name: string, kind: AcquirerKind, c: Company)
    requires c.sector == "Marketing Tech"
    ensures Matches(Acquirer(name, ["Tech"], kind), c)
    ensures !("Tech" == c.sector)
  {
    assert OccursAt(c.sector, "Tech", 10);
  }

  /**
   * Whether a company is a potential target of an acquirer: some focus entry
   * occurs in its sector, or the acquirer carries the wildcard.
   */
  function Matches(acquirer: Acquirer, company: Company): (r: bool)
    ensures r <==> || Wildcard in acquirer.focus
                   || exists f, i: nat :: f in acquirer.focus && OccursAt(company.sector, f, i)
    ensures company.sector in acquirer.focus ==> r
    ensures acquirer.focus == [] ==> !r
  {
    FocusOccurs(acquirer.focus, company.sector);
    assert company.sector in acquirer.focus ==> OccursAt(company.sector, company.sector, 0) by {
      assert company.sector[..|company.sector|] == company.sector;
    }
    || (exists focus :: focus in acquirer.focus && Contains(company.sector, focus))
    || Wildcard in acquirer.focus
  }

  /** The potential targets, in pool order. */
  function Candidates(acquirer: Acquirer, pool: seq<Company>): (r: seq<Company>)
    ensures |r| <= |pool|
    ensures forall c :: c in r ==> c in pool && Matches(acquirer, c)
    ensures forall c :: c in pool && Matches(acquirer, c) ==> c in r
  {
    if |pool| == 0 then []
    else (if Matches(acquirer, pool[0]) then [pool[0]] else []) + Candidates(acquirer, pool[1..])
  }

  /** `find_potential_target`: a random choice among the candidates, or none. */
  function FindTarget(acquirer: Acquirer, pool: seq<Company>, pick: Unit): (r: Option<Company>)
    ensures r.None? <==> forall c :: c in pool ==> !Matches(acquirer, c)
    ensures r.Some? ==> r.value in pool && Matches(acquirer, r.value)
  {
    var candidates := Candidates(acquirer, pool);
    if |candidates| == 0 then None
    else
      var chosen := candidates[ChoiceIndex(pick, |candidates|)];
      assert chosen in candidates;
      Some(chosen)
  }

  /** Every potential target is chosen by some draw. */
  lemma FindTargetReaches(acquirer: Acquirer, pool: seq<Company>, c: Company)
    requires c in pool && Matches(acquirer, c)
    ensures exists pick: Unit :: FindTarget(acquirer, pool, pick) == Some(c)
  {
    var candidates := Candidates(acquirer, pool);
    var k :| 0 <= k < |candidates| && candidates[k] == c;
    ChoiceReaches(|candidates|, k);
    var pick: Unit := k as real / |candidates| as real;
    assert FindTarget(acquirer, pool, pick) == Some(c);
  }

  // ---------------------------------------------------------------------------
  // One acquirer's turn

  /**
   * The proposal gate of each acquirer kind. An acquirer of any other kind
   * never proposes.
   */
  function WillPropose(acquirer: Acquirer, target: Company, m: Market): (r: bool)
    ensures acquirer.kind.Other? ==> !r
    ensures acquirer.kind.Financial? && (target.ebitdaMargin <= 0.0 || m.interestRate >= 0.04) ==> !r
    ensures acquirer.kind.Strategic? && acquirer.kind.factors == target.factors ==> r
  {
    match acquirer.kind
    case Financial => target.ebitdaMargin > 0.0 && m.interestRate < FinancialRateCeiling
    case Strategic(factors, _) => CalculateScore(factors, target.factors) < ComplexityCeiling
    case Other => false
  }

  /** A strategic acquirer always proposes to a target whose integration profile equals its own. */
  lemma IdenticalProfilesPropose(acquirer: Acquirer, target: Company, m: Market)
    requires acquirer.kind.Strategic? && acquirer.kind.factors == target.factors
    ensures WillPropose(acquirer, target, m)
  {
  }

  /** `NewDeal` needs a valued target, which every company of a valued pool is. */
  predicate AllValued(pool: seq<Company>)
  {
    forall c :: c in pool ==> c.valuation.Some?
  }

  /** The draws one acquirer's turn may consume. */
  datatype TurnDraws = TurnDraws(pick: Unit, deal: DealDraws, review: Unit)

  /** What one acquirer's turn comes to. */
  datatype Turn =
    | NoTarget
    | Declined(target: Company)
    | Stopped(deal: Deal, reason: Reason)
    | Acquired(deal: Deal, reason: Reason)

  /** The body of the acquirer loop in `run_simulation_step`, up to its bookkeeping. */
  function Evaluate(acquirer: Acquirer, m: Market, cfg: Config, pool: seq<Company>, d: TurnDraws): (t: Turn)
    requires AllValued(pool)
    ensures t.NoTarget? <==> forall c :: c in pool ==> !Matches(acquirer, c)
    ensures t.Declined? ==> t.target in pool && Matches(acquirer, t.target) && !WillPropose(acquirer, t.target, m)
    ensures t.Stopped? || t.Acquired? ==>
              && t.deal.target in pool
              && Matches(acquirer, t.deal.target)
              && WillPropose(acquirer, t.deal.target, m)
              && t.deal == NewDeal(acquirer, t.deal.target, d.deal)
    ensures t.Acquired? ==> ReviewDeal(cfg, t.deal, d.review) == (Approved, t.reason)
    ensures t.Stopped? ==> UnderReview(cfg, t.deal) && ReviewDeal(cfg, t.deal, d.review) == (Blocked, t.reason)
    ensures acquirer.kind.Other? ==> t.NoTarget? || t.Declined?
  {
    match FindTarget(acquirer, pool, d.pick)
    case None => NoTarget
    case Some(target) =>
      if !WillPropose(acquirer, target, m) then Declined(target)
      else
        var deal := NewDeal(acquirer, target, d.deal);
        var review := ReviewDeal(cfg, deal, d.review);
        if review.0 == Approved then Acquired(deal, review.1) else Stopped(deal, review.1)
  }

  /** A financial buyer that found a target proposes iff the target is profitable and the rate is below 4%. */
  lemma FinancialGate(acquirer: Acquirer, m: Market, cfg: Config, pool: seq<Company>, d: TurnDraws, target: Company)
    requires AllValued(pool) && acquirer.kind.Financial?
    requires FindTarget(acquirer, pool, d.pick) == Some(target)
    ensures Evaluate(acquirer, m, cfg, pool, d).Declined?
        <==> !(target.ebitdaMargin > 0.0 && m.interestRate < 0.04)
  {
  }

  /** A strategic acquirer that found a target proposes iff the rounded integration score is below 65. */
  lemma StrategicGate(acquirer: Acquirer, m: Market, cfg: Config, pool: seq<Company>, d: TurnDraws, target: Company)
    requires AllValued(pool) && acquirer.kind.Strategic?
    requires FindTarget(acquirer, pool, d.pick) == Some(target)
    ensures Evaluate(acquirer, m, cfg, pool, d).Declined?
        <==> CalculateScore(acquirer.kind.factors, target.factors) >= 65.0
  {
  }

  /** The position of the first element equal to `c`. */
  function IndexOf(pool: seq<Company>, c: Company): (k: nat)
    requires c in pool
    ensures k < |pool| && pool[k] == c
    ensures forall i :: 0 <= i < k ==> pool[i] != c
  {
    if pool[0] == c then 0 else 1 + IndexOf(pool[1..], c)
  }

  /** `list.remove(c)`: drops the first element equal to `c`, keeping the order of the rest. */
  function Remove(pool: seq<Company>, c: Company): (r: seq<Company>)
    requires c in pool
    ensures |r| == |pool| - 1
    ensures forall i :: 0 <= i < IndexOf(pool, c) ==> r[i] == pool[i]
    ensures forall i :: IndexOf(pool, c) <= i < |r| ==> r[i] == pool[i + 1]
  {
    var k := IndexOf(pool, c);
    pool[..k] + pool[k + 1..]
  }

  /**
   * The bookkeeping invariant: pool companies are distinct, no company is the
   * target of two closed deals, and no closed deal's target is still in the pool.
   */
  predicate Consistent(pool: seq<Company>, closed: seq<Deal>)
  {
    && (forall i, j :: 0 <= i < j < |pool| ==> pool[i].id != pool[j].id)
    && (forall i, j :: 0 <= i < j < |closed| ==> closed[i].target.id != closed[j].target.id)
    && (forall i, j :: 0 <= i < |pool| && 0 <= j < |closed| ==> pool[i].id != closed[j].target.id)
  }

  /** The identities of the pool's companies. */
  function Ids(pool: seq<Company>): set<nat>
  {
    set c | c in pool :: c.id
  }

  /** The identities of the closed deals' targets. */
  function TargetIds(closed: seq<Deal>): set<nat>
  {
    set d | d in closed :: d.target.id
  }

  /**
   * The bookkeeping of one turn: an acquisition appends the deal and removes its
   * target from the pool; any other outcome leaves both unchanged.
   */
  function Record(t: Turn, pool: seq<Company>, closed: seq<Deal>): (r: (seq<Company>, seq<Deal>))
    requires Consistent(pool, closed)
    requires t.Acquired? ==> t.deal.target in pool
    ensures Consistent(r.0, r.1)
    ensures |r.0| + |r.1| == |pool| + |closed|
    ensures Ids(r.0) + TargetIds(r.1) == Ids(pool) + TargetIds(closed)
    ensures forall c :: c in r.0 ==> c in pool
    ensures t.Acquired? ==> r.1 == closed + [t.deal] && |r.0| == |pool| - 1 && t.deal.target.id !in Ids(r.0)
    ensures !t.Acquired? ==> r.0 == pool && r.1 == closed
  {
    if t.Acquired? then
      var pool', closed' := Remove(pool, t.deal.target), closed + [t.deal];
      RecordKeepsConsistent(pool, closed, t.deal);
      (pool', closed')
    else (pool, closed)
  }

  lemma RecordKeepsConsistent(pool: seq<Company>, closed: seq<Deal>, deal: Deal)
    requires Consistent(pool, closed) && deal.target in pool
    ensures var pool' := Remove(pool, deal.target);
      && Consistent(pool', closed + [deal])
      && (forall c :: c in pool' ==> c in pool)
      && Ids(pool') + TargetIds(closed + [deal]) == Ids(pool) + TargetIds(closed)
      && deal.target.id !in Ids(pool')
  {
    RemoveDropsOnlyTarget(pool, deal.target);
    ConsistentAfterClose(pool, closed, deal);
    IdsAfterClose(pool, closed, deal);
  }

  /** With distinct identities, removing the target drops its identity and keeps every other company. */
  lemma RemoveDropsOnlyTarget(pool: seq<Company>, c: Company)
    requires c in pool
    requires forall i, j :: 0 <= i < j < |pool| ==> pool[i].id != pool[j].id
    ensures var pool' := Remove(pool, c);
      && (forall i :: 0 <= i < |pool'| ==> pool'[i] == pool[if i < IndexOf(pool, c) then i else i + 1])
      && (forall x :: x in pool' ==> x in pool && x.id != c.id)
      && Ids(pool) == Ids(pool') + {c.id}
  {
    var k := IndexOf(pool, c);
    var pool' := Remove(pool, c);
    forall x | x in pool' ensures x in pool && x.id != c.id {
      var i :| 0 <= i < |pool'| && pool'[i] == x;
      if i < k {
        assert pool'[i] == pool[i];
      } else {
        assert pool'[i] == pool[i + 1];
      }
    }
    forall id | id in Ids(pool) ensures id in Ids(pool') + {c.id} {
      var i :| 0 <= i < |pool| && pool[i].id == id;
      if i < k {
        assert pool'[i] == pool[i];
      } else if i > k {
        assert pool'[i - 1] == pool[i];
      }
    }
  }

  lemma ConsistentAfterClose(pool: seq<Company>, closed: seq<Deal>, deal: Deal)
    requires Consistent(pool, closed) && deal.target in pool
    requires forall x :: x in Remove(pool, deal.target) ==> x in pool && x.id != deal.target.id
    requires forall i :: 0 <= i < |Remove(pool, deal.target)| ==>
               Remove(pool, deal.target)[i] == pool[if i < IndexOf(pool, deal.target) then i else i + 1]
    ensures Consistent(Remove(pool, deal.target), closed + [deal])
  {
    var k := IndexOf(pool, deal.target);
    var pool' := Remove(pool, deal.target);
    var closed' := closed + [deal];
    forall i, j | 0 <= i < |pool'| && 0 <= j < |closed'| ensures pool'[i].id != closed'[j].target.id {
      assert pool'[i] in pool';
      if j < |closed| {
        assert closed'[j] == closed[j];
        assert pool'[i] == pool[if i < k then i else i + 1];
      }
    }
    forall i, j | 0 <= i < j < |closed'| ensures closed'[i].target.id != closed'[j].target.id {
      if j == |closed| {
        assert pool[k] == deal.target;
        assert closed'[i] == closed[i];
      }
    }
    forall i, j | 0 <= i < j < |pool'| ensures pool'[i].id != pool'[j].id {
      var i0 := if i < k then i else i + 1;
      var j0 := if j < k then j else j + 1;
      assert i0 < j0;
      assert pool'[i] == pool[i0] && pool'[j] == pool[j0];
    }
  }

  lemma IdsAfterClose(pool: seq<Company>, closed: seq<Deal>, deal: Deal)
    requires deal.target in pool
    requires Ids(pool) == Ids(Remove(pool, deal.target)) + {deal.target.id}
    ensures Ids(Remove(pool, deal.target)) + TargetIds(closed + [deal]) == Ids(pool) + TargetIds(closed)
  {
    var closed' := closed + [deal];
    assert forall d :: d in closed' <==> d in closed || d == deal;
    assert TargetIds(closed') == TargetIds(closed) + {deal.target.id};
  }

  /**
   * The acquirer loop of `run_simulation_step`, over the acquirers from a fixed
   * market; it stops as soon as the pool is empty.
   */
  function StepAcquirers(acquirers: seq<Acquirer>, m: Market, cfg: Config, pool: seq<Company>,
                         closed: seq<Deal>, draws: seq<TurnDraws>): (r: (seq<Company>, seq<Deal>))
    requires |draws| >= |acquirers|
    requires AllValued(pool) && Consistent(pool, closed)
    ensures AllValued(r.0) && Consistent(r.0, r.1)
    ensures |r.0| + |r.1| == |pool| + |closed|
    ensures Ids(r.0) + TargetIds(r.1) == Ids(pool) + TargetIds(closed)
    ensures forall c :: c in r.0 ==> c in pool
    ensures closed <= r.1
    ensures forall i :: |closed| <= i < |r.1| ==>
              r.1[i].target in pool && PriceComposed(r.1[i]) && ClosedInTurn(r.1[i], acquirers, m, cfg, draws)
    ensures |pool| == 0 ==> r.0 == pool && r.1 == closed
    decreases |acquirers|
  {
    if |acquirers| == 0 || |pool| == 0 then (pool, closed)
    else
      var next := TakeTurn(acquirers[0], m, cfg, pool, closed, draws[0]);
      var r := StepAcquirers(acquirers[1..], m, cfg, next.0, next.1, draws[1..]);
      assert next.1 <= r.1;
      r
  }

  /**
   * The loop is a left fold of turns: with no acquirers it changes nothing,
   * and one more acquirer at the end takes its turn on whatever the others
   * left, unless the pool is already empty. A close does not end the loop.
   */
  lemma {:induction false} StepAcquirersSnoc(acquirers: seq<Acquirer>, a: Acquirer, m: Market, cfg: Config,
                                             pool: seq<Company>, closed: seq<Deal>, draws: seq<TurnDraws>, d: TurnDraws)
    requires |draws| == |acquirers|
    requires AllValued(pool) && Consistent(pool, closed)
    ensures StepAcquirers([], m, cfg, pool, closed, []) == (pool, closed)
    ensures var before := StepAcquirers(acquirers, m, cfg, pool, closed, draws);
      StepAcquirers(acquirers + [a], m, cfg, pool, closed, draws + [d])
        == if |before.0| == 0 then before else TakeTurn(a, m, cfg, before.0, before.1, d)
    decreases |acquirers|
  {
    if |acquirers| == 0 {
      assert acquirers + [a] == [a] && draws + [d] == [d];
    } else if |pool| > 0 {
      var next := TakeTurn(acquirers[0], m, cfg, pool, closed, draws[0]);
      assert (acquirers + [a])[0] == acquirers[0] && (draws + [d])[0] == draws[0];
      assert (acquirers + [a])[1..] == acquirers[1..] + [a];
      assert (draws + [d])[1..] == draws[1..] + [d];
      assert StepAcquirers(acquirers + [a], m, cfg, pool, closed, draws + [d])
          == StepAcquirers(acquirers[1..] + [a], m, cfg, next.0, next.1, draws[1..] + [d]);
      StepAcquirersSnoc(acquirers[1..], a, m, cfg, next.0, next.1, draws[1..], d);
    }
  }

  /**
   * The loop closes nothing exactly when no acquirer's turn, taken on the
   * starting pool with its own draws, ends in an acquisition: a turn that does
   * not acquire leaves the pool as it was for the next one.
   */
  lemma {:induction false} StepClosesNothing(acquirers: seq<Acquirer>, m: Market, cfg: Config, pool: seq<Company>,
                                             closed: seq<Deal>, draws: seq<TurnDraws>)
    requires |draws| >= |acquirers|
    requires AllValued(pool) && Consistent(pool, closed)
    ensures StepAcquirers(acquirers, m, cfg, pool, closed, draws).1 == closed
        <==> NoneAcquires(acquirers, m, cfg, pool, draws)
    decreases |acquirers|
  {
    if |acquirers| > 0 {
      if |pool| == 0 {
        NoneAcquiresOnEmpty(acquirers, m, cfg, pool, draws);
      } else {
        var next := TakeTurn(acquirers[0], m, cfg, pool, closed, draws[0]);
        StepClosesNothing(acquirers[1..], m, cfg, next.0, next.1, draws[1..]);
      }
    }
  }

  /**
   * No acquirer's turn, each taken on `pool` with its own draws, ends in an
   * acquisition; `NoneAcquiresEach` states it turn by turn.
   */
  predicate NoneAcquires(acquirers: seq<Acquirer>, m: Market, cfg: Config, pool: seq<Company>, draws: seq<TurnDraws>)
    requires |draws| >= |acquirers| && AllValued(pool)
    decreases |acquirers|
  {
    || |acquirers| == 0
    || (&& !Evaluate(acquirers[0], m, cfg, pool, draws[0]).Acquired?
        && NoneAcquires(acquirers[1..], m, cfg, pool, draws[1..]))
  }

  /** On an empty pool no turn finds a target, so none acquires. */
  lemma {:induction false} NoneAcquiresOnEmpty(acquirers: seq<Acquirer>, m: Market, cfg: Config, pool: seq<Company>,
                                               draws: seq<TurnDraws>)
    requires |draws| >= |acquirers| && |pool| == 0
    ensures NoneAcquires(acquirers, m, cfg, pool, draws)
    decreases |acquirers|
  {
    if |acquirers| > 0 {
      NoneAcquiresOnEmpty(acquirers[1..], m, cfg, pool, draws[1..]);
    }
  }

  lemma NoneAcquiresEach(acquirers: seq<Acquirer>, m: Market, cfg: Config, pool: seq<Company>, draws: seq<TurnDraws>)
    requires |draws| >= |acquirers| && AllValued(pool)
    ensures NoneAcquires(acquirers, m, cfg, pool, draws)
        <==> forall k :: 0 <= k < |acquirers| ==> !Evaluate(acquirers[k], m, cfg, pool, draws[k]).Acquired?
  {
    if NoneAcquires(acquirers, m, cfg, pool, draws) {
      forall k | 0 <= k < |acquirers| ensures !Evaluate(acquirers[k], m, cfg, pool, draws[k]).Acquired? {
        NoneAcquiresAt(acquirers, m, cfg, pool, draws, k);
      }
    } else {
      var k := SomeAcquires(acquirers, m, cfg, pool, draws);
    }
  }

  /** Turn `k` of a run in which no turn acquires does not acquire. */
  lemma {:induction false} NoneAcquiresAt(acquirers: seq<Acquirer>, m: Market, cfg: Config, pool: seq<Company>,
                                          draws: seq<TurnDraws>, k: nat)
    requires |draws| >= |acquirers| && AllValued(pool) && k < |acquirers|
    requires NoneAcquires(acquirers, m, cfg, pool, draws)
    ensures !Evaluate(acquirers[k], m, cfg, pool, draws[k]).Acquired?
    decreases k
  {
    if k > 0 {
      NoneAcquiresAt(acquirers[1..], m, cfg, pool, draws[1..], k - 1);
      assert acquirers[1..][k - 1] == acquirers[k] && draws[1..][k - 1] == draws[k];
    }
  }

  /** When some turn acquires, there is a first one. */
  lemma {:induction false} SomeAcquires(acquirers: seq<Acquirer>, m: Market, cfg: Config, pool: seq<Company>,
                                        draws: seq<TurnDraws>) returns (k: nat)
    requires |draws| >= |acquirers| && AllValued(pool)
    requires !NoneAcquires(acquirers, m, cfg, pool, draws)
    ensures k < |acquirers| && Evaluate(acquirers[k], m, cfg, pool, draws[k]).Acquired?
    decreases |acquirers|
  {
    if Evaluate(acquirers[0], m, cfg, pool, draws[0]).Acquired? {
      k := 0;
    } else {
      var j := SomeAcquires(acquirers[1..], m, cfg, pool, draws[1..]);
      assert acquirers[1..][j] == acquirers[j + 1] && draws[1..][j] == draws[j + 1];
      k := j + 1;
    }
  }


  /** One acquirer's turn followed by its bookkeeping: at most one priced deal on a pool member is appended. */
  function TakeTurn(acquirer: Acquirer, m: Market, cfg: Config, pool: seq<Company>,
                    closed: seq<Deal>, d: TurnDraws): (r: (seq<Company>, seq<Deal>))
    requires AllValued(pool) && Consistent(pool, closed)
    ensures AllValued(r.0) && Consistent(r.0, r.1)
    ensures |r.0| + |r.1| == |pool| + |closed|
    ensures Ids(r.0) + TargetIds(r.1) == Ids(pool) + TargetIds(closed)
    ensures forall c :: c in r.0 ==> c in pool
    ensures closed <= r.1 && |r.1| <= |closed| + 1
    ensures |r.1| == |closed| + 1 <==> Evaluate(acquirer, m, cfg, pool, d).Acquired?
    ensures Evaluate(acquirer, m, cfg, pool, d).Acquired? ==>
              r.1 == closed + [Evaluate(acquirer, m, cfg, pool, d).deal]
    ensures !Evaluate(acquirer, m, cfg, pool, d).Acquired? ==> r == (pool, closed)
    ensures forall i :: |closed| <= i < |r.1| ==>
              r.1[i].target in pool && PriceComposed(r.1[i]) && ClosedBy(r.1[i], acquirer, m, cfg, d)
  {
    Record(Evaluate(acquirer, m, cfg, pool, d), pool, closed)
  }

  /**
   * A deal the turn of `acquirer` with draws `d` closes: it is that acquirer's
   * deal on a valued, matching target that passed the gate under market `m`,
   * and the regulator approved it.
   */
  predicate ClosedBy(deal: Deal, acquirer: Acquirer, m: Market, cfg: Config, d: TurnDraws)
  {
    && deal.acquirer == acquirer
    && deal.target.valuation.Some?
    && deal == NewDeal(acquirer, deal.target, d.deal)
    && Matches(acquirer, deal.target)
    && WillPropose(acquirer, deal.target, m)
    && ReviewDeal(cfg, deal, d.review).0 == Approved
  }

  /** A deal closed by the turn of one of `acquirers`, with that turn's draws. */
  predicate ClosedInTurn(deal: Deal, acquirers: seq<Acquirer>, m: Market, cfg: Config, draws: seq<TurnDraws>)
    requires |draws| >= |acquirers|
  {
    exists k :: 0 <= k < |acquirers| && ClosedBy(deal, acquirers[k], m, cfg, draws[k])
  }

  /** `update_all_valuations`: every company gets fresh details; nothing else about it changes. */
  function Revalue(pool: seq<Company>, m: Market, draws: seq<ValuationDraws>): (r: seq<Company>)
    requires |draws| >= |pool|
    ensures |r| == |pool| && AllValued(r)
    ensures forall i :: 0 <= i < |r| ==> r[i].(valuation := pool[i].valuation) == pool[i]
    ensures forall i :: 0 <= i < |r| ==> r[i].valuation == Some(CalculateValuation(pool[i], m, draws[i]))
  {
    seq(|pool|, i requires 0 <= i < |pool| => pool[i].(valuation := Some(CalculateValuation(pool[i], m, draws[i]))))
  }

  /** `c` is one of `pool`'s companies, with fresh details against market `m`. */
  predicate RevaluedFrom(c: Company, pool: seq<Company>, m: Market, draws: seq<ValuationDraws>)
    requires |draws| >= |pool|
  {
    exists i :: 0 <= i < |pool| && c == pool[i].(valuation := Some(CalculateValuation(pool[i], m, draws[i])))
  }

  /** Revaluation keeps every identity, so it keeps the bookkeeping invariant. */
  lemma RevalueKeepsBookkeeping(pool: seq<Company>, closed: seq<Deal>, m: Market, draws: seq<ValuationDraws>)
    requires |draws| >= |pool| && Consistent(pool, closed)
    ensures var pool' := Revalue(pool, m, draws);
      && Ids(pool') == Ids(pool)
      && Consistent(pool', closed)
      && forall c :: c in pool' ==> RevaluedFrom(c, pool, m, draws)
  {
    RevalueKeepsIds(pool, closed, Revalue(pool, m, draws));
    var pool' := Revalue(pool, m, draws);
    forall c | c in pool' ensures RevaluedFrom(c, pool, m, draws) {
      var i :| 0 <= i < |pool'| && pool'[i] == c;
      assert c == pool[i].(valuation := Some(CalculateValuation(pool[i], m, draws[i])));
    }
  }

  /** A pool whose companies keep their positions and identities keeps the bookkeeping invariant. */
  lemma RevalueKeepsIds(pool: seq<Company>, closed: seq<Deal>, pool': seq<Company>)
    requires Consistent(pool, closed) && |pool'| == |pool|
    requires forall i :: 0 <= i < |pool'| ==> pool'[i].(valuation := pool[i].valuation) == pool[i]
    ensures Ids(pool') == Ids(pool) && Consistent(pool', closed)
  {
    assert forall i :: 0 <= i < |pool'| ==> pool'[i].id == pool[i].id;
    forall id | id in Ids(pool) ensures id in Ids(pool') {
      var i :| 0 <= i < |pool| && pool[i].id == id;
      assert pool'[i].id == id;
    }
  }


  datatype Simulation = Simulation(market: Market, pool: seq<Company>, closed: seq<Deal>)

  /** The draws of one run step: the market update, one valuation per company, one turn per acquirer. */
  datatype StepDraws = StepDraws(
    rateFactor: Unit,
    sentimentRoll: Unit,
    valuations: seq<ValuationDraws>,
    turns: seq<TurnDraws>)

  /** Enough draws for a pool of `poolSize` companies and `acquirers` acquirers. */
  predicate Covers(d: StepDraws, poolSize: nat, acquirers: nat)
  {
    |d.valuations| >= poolSize && |d.turns| >= acquirers
  }

  /**
   * The engine's construction: a fresh market and the generated companies,
   * each given its own identity and valued once.
   */
  function NewSimulation(companies: seq<Company>, rateDraw: Unit, draws: seq<ValuationDraws>): (s: Simulation)
    requires |draws| >= |companies|
    ensures s.closed == [] && |s.pool| == |companies|
    ensures Consistent(s.pool, s.closed) && AllValued(s.pool)
    ensures RateInBand(s.market.interestRate) && s.market.sentiment == Neutral
    ensures forall i :: 0 <= i < |s.pool| ==>
              s.pool[i].(id := companies[i].id, valuation := companies[i].valuation) == companies[i]
    ensures forall i :: 0 <= i < |s.pool| ==> s.pool[i].id == i
    ensures forall i :: 0 <= i < |s.pool| ==>
              s.pool[i].valuation == Some(CalculateValuation(companies[i], s.market, draws[i]))
  {
    var market := Init(rateDraw);
    var identified := seq(|companies|, i requires 0 <= i < |companies| => companies[i].(id := i));
    Simulation(market, Revalue(identified, market, draws), [])
  }

  /**
   * One iteration of the loop of `run_full_simulation`: update the market,
   * revalue the pool against the new market, then run the acquirers.
   */
  function RunStep(s: Simulation, acquirers: seq<Acquirer>, cfg: Config, d: StepDraws): (r: Simulation)
    requires Covers(d, |s.pool|, |acquirers|)
    requires Consistent(s.pool, s.closed)
    ensures r.market == Update(s.market, d.rateFactor, d.sentimentRoll)
    ensures RateInBand(r.market.interestRate)
    ensures Consistent(r.pool, r.closed)
    ensures |r.pool| + |r.closed| == |s.pool| + |s.closed|
    ensures Ids(r.pool) + TargetIds(r.closed) == Ids(s.pool) + TargetIds(s.closed)
    ensures |r.pool| <= |s.pool|
    ensures s.closed <= r.closed
    ensures AllValued(r.pool)
    ensures forall c :: c in r.pool ==> RevaluedFrom(c, s.pool, r.market, d.valuations)
    ensures forall k :: |s.closed| <= k < |r.closed| ==>
              && RevaluedFrom(r.closed[k].target, s.pool, r.market, d.valuations)
              && ClosedInTurn(r.closed[k], acquirers, r.market, cfg, d.turns)
    ensures r.closed == s.closed <==>
              NoneAcquires(acquirers, r.market, cfg, Revalue(s.pool, r.market, d.valuations), d.turns)
  {
    var market := Update(s.market, d.rateFactor, d.sentimentRoll);
    var pool := Revalue(s.pool, market, d.valuations);
    RevalueKeepsBookkeeping(s.pool, s.closed, market, d.valuations);
    StepClosesNothing(acquirers, market, cfg, pool, s.closed, d.turns);
    var after := StepAcquirers(acquirers, market, cfg, pool, s.closed, d.turns);
    Simulation(market, after.0, after.1)
  }

  /**
   * Within a run step, one more acquirer at the end takes its turn against the
   * step's market on the pool and deals the others left, after any earlier
   * close, unless the pool is already empty.
   */
  lemma RunStepLastTurn(s: Simulation, acquirers: seq<Acquirer>, a: Acquirer, cfg: Config, d: StepDraws, t: TurnDraws)
    requires Covers(d, |s.pool|, |acquirers|) && |d.turns| == |acquirers|
    requires Consistent(s.pool, s.closed)
    ensures var before := RunStep(s, acquirers, cfg, d);
      var after := RunStep(s, acquirers + [a], cfg, d.(turns := d.turns + [t]));
      && after.market == before.market
      && (|before.pool| == 0 ==> after == before)
      && (|before.pool| > 0 ==>
            (after.pool, after.closed) == TakeTurn(a, before.market, cfg, before.pool, before.closed, t))
  {
    var market := Update(s.market, d.rateFactor, d.sentimentRoll);
    RevalueKeepsBookkeeping(s.pool, s.closed, market, d.valuations);
    StepAcquirersSnoc(acquirers, a, market, cfg, Revalue(s.pool, market, d.valuations), s.closed, d.turns, t);
  }

  /** The market draws of the first `n` steps. */
  function MarketDraws(draws: seq<StepDraws>, n: nat): (r: seq<(Unit, Unit)>)
    requires n <= |draws|
    ensures |r| == n
    ensures forall j :: 0 <= j < n ==> r[j] == (draws[j].rateFactor, draws[j].sentimentRoll)
  {
    seq(n, j requires 0 <= j < n => (draws[j].rateFactor, draws[j].sentimentRoll))
  }

  /** The market in force during step `j`: the starting market after `j + 1` updates. */
  function MarketAt(m0: Market, draws: seq<StepDraws>, j: nat): Market
    requires j < |draws|
  {
    UpdateAll(m0, MarketDraws(draws, j + 1))
  }

  /** `deal` was closed in step `j` of a run from market `m0`, against that step's market and turn draws. */
  predicate ClosedInStep(deal: Deal, acquirers: seq<Acquirer>, cfg: Config, m0: Market, draws: seq<StepDraws>, j: nat)
  {
    && j < |draws|
    && |draws[j].turns| >= |acquirers|
    && ClosedInTurn(deal, acquirers, MarketAt(m0, draws, j), cfg, draws[j].turns)
  }

  /** `deal` was closed in one of the first `ran` steps of a run from market `m0`. */
  predicate ClosedInRun(deal: Deal, acquirers: seq<Acquirer>, cfg: Config, m0: Market, draws: seq<StepDraws>, ran: nat)
  {
    exists j :: 0 <= j < ran && ClosedInStep(deal, acquirers, cfg, m0, draws, j)
  }

  /**
   * Step `j` of a run continues the market history by one update, and every
   * deal it closes is closed in step `j`.
   */
  lemma StepExtendsRun(m0: Market, s: Simulation, acquirers: seq<Acquirer>, cfg: Config, draws: seq<StepDraws>, j: nat)
    requires j < |draws| && Covers(draws[j], |s.pool|, |acquirers|)
    requires Consistent(s.pool, s.closed)
    requires s.market == UpdateAll(m0, MarketDraws(draws, j))
    ensures var next := RunStep(s, acquirers, cfg, draws[j]);
      && next.market == MarketAt(m0, draws, j)
      && forall k :: |s.closed| <= k < |next.closed| ==> ClosedInStep(next.closed[k], acquirers, cfg, m0, draws, j)
  {
    assert MarketDraws(draws, j + 1) == MarketDraws(draws, j) + [(draws[j].rateFactor, draws[j].sentimentRoll)];
    UpdateAllThenUpdate(m0, MarketDraws(draws, j), draws[j].rateFactor, draws[j].sentimentRoll);
  }

  /**
   * `run_full_simulation` as a function: the run steps from `s` with the draws
   * at `from`, `from + 1`, ... up to `stop`, ending early once the pool is
   * empty. The result is the final state and the index the run ended at.
   */
  function RunSteps(s: Simulation, acquirers: seq<Acquirer>, cfg: Config, draws: seq<StepDraws>, from: nat, stop: nat): (Simulation, nat)
    requires Consistent(s.pool, s.closed)
    requires from <= stop <= |draws|
    requires forall i :: from <= i < |draws| ==> Covers(draws[i], |s.pool|, |acquirers|)
    decreases stop - from
  {
    if from == stop || |s.pool| == 0 then (s, from)
    else
      var next := RunStep(s, acquirers, cfg, draws[from]);
      CoversSmaller(draws, from + 1, |s.pool|, |next.pool|, |acquirers|);
      RunSteps(next, acquirers, cfg, draws, from + 1, stop)
  }

  /** Draws that cover a pool cover any smaller one. */
  lemma CoversSmaller(draws: seq<StepDraws>, from: nat, poolSize: nat, smaller: nat, acquirers: nat)
    requires smaller <= poolSize
    requires forall i :: from <= i < |draws| ==> Covers(draws[i], poolSize, acquirers)
    ensures forall i :: from <= i < |draws| ==> Covers(draws[i], smaller, acquirers)
  {
    forall i | from <= i < |draws| ensures Covers(draws[i], smaller, acquirers) {
      assert Covers(draws[i], poolSize, acquirers);
    }
  }

  /** A run from a state with a nonempty pool is its first step and then the run from there. */
  lemma RunStepsAdvance(s: Simulation, acquirers: seq<Acquirer>, cfg: Config, draws: seq<StepDraws>, from: nat, stop: nat)
    requires Consistent(s.pool, s.closed)
    requires from < stop <= |draws| && |s.pool| > 0
    requires forall i :: from <= i < |draws| ==> Covers(draws[i], |s.pool|, |acquirers|)
    ensures var next := RunStep(s, acquirers, cfg, draws[from]);
      && (forall i :: from + 1 <= i < |draws| ==> Covers(draws[i], |next.pool|, |acquirers|))
      && RunSteps(s, acquirers, cfg, draws, from, stop) == RunSteps(next, acquirers, cfg, draws, from + 1, stop)
  {
    var next := RunStep(s, acquirers, cfg, draws[from]);
    CoversSmaller(draws, from + 1, |s.pool|, |next.pool|, |acquirers|);
  }

  /**
   * Step `j` continues a history of `j` steps to one of `j + 1`: deals closed
   * before it stay closed in some earlier step, and its own are closed in
   * step `j`.
   */
  lemma StepExtendsHistory(m0: Market, c0: nat, s: Simulation, acquirers: seq<Acquirer>, cfg: Config,
                           draws: seq<StepDraws>, j: nat)
    requires j < |draws| && Covers(draws[j], |s.pool|, |acquirers|)
    requires Consistent(s.pool, s.closed)
    requires s.market == UpdateAll(m0, MarketDraws(draws, j))
    requires forall k :: c0 <= k < |s.closed| ==> ClosedInRun(s.closed[k], acquirers, cfg, m0, draws, j)
    ensures var next := RunStep(s, acquirers, cfg, draws[j]);
      && next.market == UpdateAll(m0, MarketDraws(draws, j + 1))
      && forall k :: c0 <= k < |next.closed| ==> ClosedInRun(next.closed[k], acquirers, cfg, m0, draws, j + 1)
  {
    var next := RunStep(s, acquirers, cfg, draws[j]);
    StepExtendsRun(m0, s, acquirers, cfg, draws, j);
    forall k | c0 <= k < |next.closed|
      ensures ClosedInRun(next.closed[k], acquirers, cfg, m0, draws, j + 1)
    {
      if k < |s.closed| {
        assert next.closed[k] == s.closed[k];
        var i :| 0 <= i < j && ClosedInStep(s.closed[k], acquirers, cfg, m0, draws, i);
      } else {
        assert ClosedInStep(next.closed[k], acquirers, cfg, m0, draws, j);
      }
    }
  }

  /**
   * One pass of the loop in `run_full_simulation`: the run step with the
   * draws at `ran` keeps the pool and the closed deals consistent, conserves
   * the companies, extends the history by one step, and leaves the rest of
   * the run from the next state the same as from this one.
   */
  method AdvanceRun(m0: Market, c0: nat, s: Simulation, acquirers: seq<Acquirer>, cfg: Config,
                    draws: seq<StepDraws>, ran: nat, stop: nat)
    returns (next: Simulation)
    requires ran < stop <= |draws| && |s.pool| > 0
    requires Consistent(s.pool, s.closed)
    requires forall i :: 0 <= i < |draws| ==> Covers(draws[i], |s.pool|, |acquirers|)
    requires s.market == UpdateAll(m0, MarketDraws(draws, ran))
    requires forall k :: c0 <= k < |s.closed| ==> ClosedInRun(s.closed[k], acquirers, cfg, m0, draws, ran)
    ensures next.market == UpdateAll(m0, MarketDraws(draws, ran + 1))
    ensures forall k :: c0 <= k < |next.closed| ==> ClosedInRun(next.closed[k], acquirers, cfg, m0, draws, ran + 1)
    ensures Consistent(next.pool, next.closed)
    ensures |next.pool| + |next.closed| == |s.pool| + |s.closed|
    ensures Ids(next.pool) + TargetIds(next.closed) == Ids(s.pool) + TargetIds(s.closed)
    ensures s.closed <= next.closed && |next.pool| <= |s.pool|
    ensures RateInBand(s.market.interestRate) ==> RateInBand(next.market.interestRate)
    ensures forall i :: 0 <= i < |draws| ==> Covers(draws[i], |next.pool|, |acquirers|)
    ensures RunSteps(next, acquirers, cfg, draws, ran + 1, stop) == RunSteps(s, acquirers, cfg, draws, ran, stop)
  {
    StepExtendsHistory(m0, c0, s, acquirers, cfg, draws, ran);
    next := RunStep(s, acquirers, cfg, draws[ran]);
    CoversSmaller(draws, 0, |s.pool|, |next.pool|, |acquirers|);
    RunStepsAdvance(s, acquirers, cfg, draws, ran, stop);
  }

  /**
   * `run_full_simulation`: the final state and the number of steps run are
   * those of `RunSteps` over all `steps` draws. It runs `ran` of the `steps`
   * run steps and stops early only on an empty pool. The market has seen one
   * update per step run; every new closed deal was closed in one of those
   * steps, against the market of that step. Every company of the starting
   * pool ends either still in the pool or as the target of exactly one new
   * closed deal.
   */
  method RunFullSimulation(s0: Simulation, acquirers: seq<Acquirer>, cfg: Config, steps: nat, draws: seq<StepDraws>)
    returns (s: Simulation, ran: nat)
    requires Consistent(s0.pool, s0.closed)
    requires |draws| >= steps
    requires forall i :: 0 <= i < |draws| ==> Covers(draws[i], |s0.pool|, |acquirers|)
    ensures (s, ran) == RunSteps(s0, acquirers, cfg, draws, 0, steps)
    ensures ran <= steps
    ensures ran < steps ==> |s.pool| == 0
    ensures ran == 0 ==> s == s0
    ensures s.market == UpdateAll(s0.market, MarketDraws(draws, ran))
    ensures forall k :: |s0.closed| <= k < |s.closed| ==> ClosedInRun(s.closed[k], acquirers, cfg, s0.market, draws, ran)
    ensures Consistent(s.pool, s.closed)
    ensures |s.pool| + |s.closed| == |s0.pool| + |s0.closed|
    ensures Ids(s.pool) + TargetIds(s.closed) == Ids(s0.pool) + TargetIds(s0.closed)
    ensures s0.closed <= s.closed
    ensures |s.pool| <= |s0.pool|
    ensures RateInBand(s0.market.interestRate) ==> RateInBand(s.market.interestRate)
  {
    s := s0;
    ran := 0;
    while ran < steps && |s.pool| > 0
      invariant ran <= steps
      invariant ran == 0 ==> s == s0
      invariant s.market == UpdateAll(s0.market, MarketDraws(draws, ran))
      invariant forall k :: |s0.closed| <= k < |s.closed| ==> ClosedInRun(s.closed[k], acquirers, cfg, s0.market, draws, ran)
      invariant Consistent(s.pool, s.closed)
      invariant |s.pool| + |s.closed| == |s0.pool| + |s0.closed|
      invariant Ids(s.pool) + TargetIds(s.closed) == Ids(s0.pool) + TargetIds(s0.closed)
      invariant s0.closed <= s.closed
      invariant |s.pool| <= |s0.pool|
      invariant RateInBand(s0.market.interestRate) ==> RateInBand(s.market.interestRate)
      invariant forall i :: 0 <= i < |draws| ==> Covers(draws[i], |s.pool|, |acquirers|)
      invariant RunSteps(s, acquirers, cfg, draws, ran, steps) == RunSteps(s0, acquirers, cfg, draws, 0, steps)
    {
      s := AdvanceRun(s0.market, |s0.closed|, s, acquirers, cfg, draws, ran, steps);
      ran := ran + 1;
    }
  }

  // ---------------------------------------------------------------------------
  // Scenario

  /**
   * One strategic acquirer that needs exactly what the only target offers, in a
   * sector outside the sensitive set and with an identical integration
   * profile: whatever the draws, one run step closes exactly one deal, with
   * synergy score 1 and that asset as the only match.
   */
  lemma SingleMatchScenario(market: Market, acquirer: Acquirer, company: Company, d: StepDraws)
    requires company.sector == "SaaS" && company.assets == {"Voice Recognition API"}
    requires "SaaS" in acquirer.focus
    requires acquirer.kind == Strategic(company.factors, {"Voice Recognition API"})
    requires Covers(d, 1, 1)
    ensures var r := RunStep(Simulation(market, [company], []), [acquirer], DefaultConfig, d);
      && r.pool == [] && |r.closed| == 1
      && r.closed[0].acquirer == acquirer && r.closed[0].target.id == company.id
      && r.closed[0].synergy.score == 1.0
      && r.closed[0].synergy.matchedAssets == Some({"Voice Recognition API"})
  {
    var m := Update(market, d.rateFactor, d.sentimentRoll);
    var pool := Revalue([company], m, d.valuations);
    var c := pool[0];
    assert pool == [c];
    assert c.(valuation := company.valuation) == company;
    assert IsPrefix("SaaS", c.sector);
    assert Matches(acquirer, c);
    assert Candidates(acquirer, pool) == [c];
    assert FindTarget(acquirer, pool, d.turns[0].pick) == Some(c);
    IdenticalProfilesPropose(acquirer, c, m);
    var deal := NewDeal(acquirer, c, d.turns[0].deal);
    Synergy.FullMatchScoresOne(acquirer, c, d.turns[0].deal.synergy);
    assert "SaaS" !in SensitiveSectors;
    assert !UnderReview(DefaultConfig, deal);
    var t := Evaluate(acquirer, m, DefaultConfig, pool, d.turns[0]);
    assert t == Acquired(deal, BelowReviewCriteria);
    var next := Record(t, pool, []);
    assert next.0 == [] && next.1 == [deal];
  }
}

=== FILE: environment.dfy ===
/** The macro environment: an interest rate that drifts within a band and a market sentiment. */
module Environment {
  import opened Arithmetic
  import opened Draws

  datatype Sentiment = Bull | Neutral | Bear

  datatype Market = Market(interestRate: real, sentiment: Sentiment)

  const MinRate: real := 0.005
  const MaxRate: real := 0.08

  predicate RateInBand(rate: real) {
    MinRate <= rate <= MaxRate
  }

  /** A fresh environment: a rate drawn from [1%, 5%) and a neutral market. */
  function Init(u: Unit): (m: Market)
    ensures 0.01 <= m.interestRate < 0.05
    ensures RateInBand(m.interestRate)
    ensures m.sentiment == Neutral
  {
    Market(Uniform(0.01, 0.05, u), Neutral)
  }

  /** `max(0.005, min(x, 0.08))`. */
  function Clamp(x: real): (r: real)
    ensures RateInBand(r)
    ensures RateInBand(x) ==> r == x
    ensures x < MinRate ==> r == MinRate
    ensures x > MaxRate ==> r == MaxRate
  {
    var capped := if x < MaxRate then x else MaxRate;
    if MinRate > capped then MinRate else capped
  }

  /** The sentiment a roll selects: bull below 0.1, bear in [0.1, 0.2), neutral from 0.2. */
  function SentimentFor(roll: Unit): (s: Sentiment)
    ensures s == Bull <==> roll < 0.1
    ensures s == Bear <==> 0.1 <= roll < 0.2
    ensures s == Neutral <==> 0.2 <= roll
  {
    if roll < 0.1 then Bull
    else if roll < 0.2 then Bear
    else Neutral
  }

  /** One step of the environment: the rate moves by a factor from [0.95, 1.05) and is clamped. */
  function Update(m: Market, factor: Unit, roll: Unit): (m': Market)
    ensures RateInBand(m'.interestRate)
    ensures m.interestRate >= 0.0 && RateInBand(m.interestRate) ==>
              0.95 * m.interestRate <= m'.interestRate <= 1.05 * m.interestRate
    ensures m'.sentiment == SentimentFor(roll)
  {
    Market(Clamp(Moved(m.interestRate, Uniform(0.95, 1.05, factor))), SentimentFor(roll))
  }

  /**
   * The rate after an update is the old rate times the drawn factor whenever
   * that product is already in the band; the clamp only acts outside it.
   */
  lemma UpdateRate(m: Market, factor: Unit, roll: Unit)
    ensures RateInBand(m.interestRate * Uniform(0.95, 1.05, factor)) ==>
              Update(m, factor, roll).interestRate == m.interestRate * Uniform(0.95, 1.05, factor)
  {
  }

  /**
   * The drift is exact: from a positive rate, every in-band rate in
   * [0.95 * rate, 1.05 * rate) is the rate after some update.
   */
  lemma UpdateReaches(m: Market, roll: Unit, x: real)
    requires m.interestRate > 0.0
    requires 0.95 * m.interestRate <= x < 1.05 * m.interestRate && RateInBand(x)
    ensures exists factor: Unit :: Update(m, factor, roll).interestRate == x
  {
    var r := m.interestRate;
    var f := x / r;
    assert r * f == x;
    QuotientBetween(x, r, 0.95, 1.05);
    UniformReaches(0.95, 1.05, f);
    var factor: Unit :| Uniform(0.95, 1.05, factor) == f;
    assert Update(m, factor, roll).interestRate == x;
  }

  /** The rate scaled by a factor; a factor within 5% of one moves a non-negative rate by at most 5%. */
  function Moved(rate: real, f: real): (r: real)
    ensures rate >= 0.0 && 0.95 <= f <= 1.05 ==> 0.95 * rate <= r <= 1.05 * rate
  {
    assert rate >= 0.0 && 0.95 <= f <= 1.05 ==> 0.95 * rate <= rate * f <= 1.05 * rate by {
      if rate >= 0.0 && 0.95 <= f <= 1.05 {
        ScaleBetween(rate, f, 0.95, 1.05);
      }
    }
    rate * f
  }

  /** The valuation multiplier of each sentiment; the lookup is total. */
  function SentimentMultiplier(s: Sentiment): (r: real)
    ensures 0.8 <= r <= 1.2
    ensures s == Bull ==> r == 1.2
    ensures s == Neutral ==> r == 1.0
    ensures s == Bear ==> r == 0.8
    ensures r == 1.0 <==> s == Neutral
    ensures r > 1.0 <==> s == Bull
  {
    match s
    case Bull => 1.2
    case Neutral => 1.0
    case Bear => 0.8
  }

  /**
   * After an update, the sentiment multiplier is 1.2 for a roll below 0.1,
   * 0.8 on [0.1, 0.2) and 1.0 from 0.2 on, whatever the market was before.
   */
  lemma UpdatedMultiplier(m: Market, factor: Unit, roll: Unit)
    ensures var r := SentimentMultiplier(Update(m, factor, roll).sentiment);
      && (r == 1.2 <==> roll < 0.1)
      && (r == 0.8 <==> 0.1 <= roll < 0.2)
      && (r == 1.0 <==> 0.2 <= roll)
  {
    var s := Update(m, factor, roll).sentiment;
    assert s == SentimentFor(roll);
  }

  /**
   * A run of updates, one pair of draws (rate factor, sentiment roll) per step.
   * The sentiment at the end is the one the last roll selects: sentiment does
   * not carry over from step to step.
   */
  function UpdateAll(m: Market, draws: seq<(Unit, Unit)>): (r: Market)
    ensures |draws| == 0 ==> r == m
    ensures |draws| > 0 ==> r.sentiment == SentimentFor(draws[|draws| - 1].1)
    decreases |draws|
  {
    if |draws| == 0 then m
    else
      var rest := draws[1..];
      assert |rest| > 0 ==> rest[|rest| - 1] == draws[|draws| - 1];
      UpdateAll(Update(m, draws[0].0, draws[0].1), rest)
  }

  /** The rate band is an invariant of any number of updates. */
  lemma {:induction false} UpdateAllKeepsBand(m: Market, draws: seq<(Unit, Unit)>)
    requires RateInBand(m.interestRate)
    ensures RateInBand(UpdateAll(m, draws).interestRate)
    decreases |draws|
  {
    if |draws| > 0 {
      UpdateAllKeepsBand(Update(m, draws[0].0, draws[0].1), draws[1..]);
    }
  }

  /** One more update after a run is the run extended by that update. */
  lemma {:induction false} UpdateAllThenUpdate(m: Market, draws: seq<(Unit, Unit)>, factor: Unit, roll: Unit)
    ensures UpdateAll(m, draws + [(factor, roll)]) == Update(UpdateAll(m, draws), factor, roll)
    decreases |draws|
  {
    if |draws| > 0 {
      assert (draws + [(factor, roll)])[1..] == draws[1..] + [(factor, roll)];
      UpdateAllThenUpdate(Update(m, draws[0].0, draws[0].1), draws[1..], factor, roll);
    }
  }
}

=== FILE: integration.dfy ===
/**
 * Integration complexity: how hard it is for an acquirer to absorb a target,
 * as a weighted sum of a tech-stack, a team-culture and an architecture score.
 */
module Integration {
  import opened Arithmetic
  import opened Rounding
  import opened Records

  const TechStackWeight: real := 0.5
  const TeamCultureWeight: real := 0.3
  const ArchitectureWeight: real := 0.2

  /**
   * One minus the Jaccard similarity of the two stacks, in percent; two empty
   * stacks count as identical.
   */
  function TechStackScore(a: set<string>, b: set<string>): (r: real)
    ensures 0.0 <= r <= 100.0
    ensures r == 0.0 <==> a == b
    ensures r == 100.0 <==> a * b == {} && a + b != {}
  {
    var overlap := |a * b|;
    var total := |a + b|;
    SubsetCardinality(a * b, a + b);
    var similarity := if total > 0 then overlap as real / total as real else 1.0;
    assert total > 0 ==> (similarity == 1.0 <==> overlap == total) by {
      if total > 0 {
        QuotientIsOne(overlap as real, total as real);
      }
    }
    assert overlap == total ==> a == b by {
      if overlap == total {
        assert a * b == a + b;
        assert a <= a + b && b <= a + b;
      }
    }
    assert a == b ==> overlap == total by {
      if a == b {
        assert a * b == a + b;
      }
    }
    assert total == 0 ==> a == b by {
      if total == 0 {
        assert a + b == {};
        assert a <= a + b && b <= a + b;
      }
    }
    (1.0 - similarity) * 100.0
  }

  /** Python's `<` on strings: lexicographic on code points, a proper prefix first. */
  function LexLess(a: string, b: string): (r: bool)
    ensures r ==> a != b
    ensures |a| < |b| && a == b[..|a|] ==> r
    decreases |a|
  {
    assert |a| > 0 && |a| < |b| && a == b[..|a|] ==> a[1..] == b[1..][..|a| - 1];
    if |a| == 0 then |b| > 0
    else if |b| == 0 then false
    else if a[0] != b[0] then a[0] < b[0]
    else LexLess(a[1..], b[1..])
  }

  /** Distinct strings are ordered one way or the other, never both. */
  lemma {:induction false} LexLessTotal(a: string, b: string)
    ensures a != b ==> LexLess(a, b) || LexLess(b, a)
    ensures !(LexLess(a, b) && LexLess(b, a))
    decreases |a|
  {
    if |a| > 0 && |b| > 0 && a[0] == b[0] {
      LexLessTotal(a[1..], b[1..]);
      if a[1..] == b[1..] {
        assert a == [a[0]] + a[1..] && b == [b[0]] + b[1..];
      }
    }
  }

  /** `tuple(sorted((a, b)))`. */
  function SortedPair(a: string, b: string): (r: (string, string))
    ensures r == (a, b) || r == (b, a)
    ensures !LexLess(r.1, r.0)
  {
    LexLessTotal(a, b);
    if LexLess(b, a) then (b, a) else (a, b)
  }

  /** The key of an unordered pair does not depend on the order of the pair. */
  lemma SortedPairSymmetric(a: string, b: string)
    ensures SortedPair(a, b) == SortedPair(b, a)
  {
    LexLessTotal(a, b);
  }

  /** The two hard-coded culture clashes, keyed by sorted pair. */
  const Clashes: map<(string, string), real> := map[
    ("agile", "hierarchical") := 80.0,
    ("remote-first", "sales-driven") := 50.0
  ]

  /** Clash score of any other pair of distinct cultures. */
  const DefaultClash: real := 30.0

  /** Team-culture score: none for equal cultures, else the pair's clash, else the default. */
  function TeamCultureScore(a: string, b: string): (r: real)
    ensures r == 0.0 || r == 30.0 || r == 50.0 || r == 80.0
    ensures r == 0.0 <==> a == b
    ensures r == 80.0 <==> a != b && {a, b} == {"agile", "hierarchical"}
    ensures r == 50.0 <==> a != b && {a, b} == {"remote-first", "sales-driven"}
  {
    if a == b then 0.0
    else
      var key := SortedPair(a, b);
      assert key == (a, b) || key == (b, a);
      assert {a, b} == {"agile", "hierarchical"} ==> key == ("agile", "hierarchical") by {
        if {a, b} == {"agile", "hierarchical"} {
          assert a == "agile" || a == "hierarchical";
          assert LexLess("agile", "hierarchical");
          assert !LexLess("hierarchical", "agile");
        }
      }
      assert {a, b} == {"remote-first", "sales-driven"} ==> key == ("remote-first", "sales-driven") by {
        if {a, b} == {"remote-first", "sales-driven"} {
          assert a == "remote-first" || a == "sales-driven";
          assert LexLess("remote-first", "sales-driven");
          assert !LexLess("sales-driven", "remote-first");
        }
      }
      if key in Clashes then Clashes[key] else DefaultClash
  }

  /** The culture score is symmetric because its key is the sorted pair. */
  lemma TeamCultureSymmetric(a: string, b: string)
    ensures TeamCultureScore(a, b) == TeamCultureScore(b, a)
  {
    SortedPairSymmetric(a, b);
  }

  /** Architecture score: none if equal, 90 for monolith against microservices, 40 otherwise. */
  function ArchitectureScore(a: string, b: string): (r: real)
    ensures r == 0.0 <==> a == b
    ensures r == 90.0 <==> a != b && {a, b} == {"microservices", "monolith"}
    ensures r == 40.0 <==> a != b && {a, b} != {"microservices", "monolith"}
  {
    if a == b then 0.0
    else if "microservices" in [a, b] && "monolith" in [a, b] then 90.0
    else 40.0
  }

  /** The weighted sum, before rounding: zero exactly when the two profiles are identical. */
  function WeightedScore(acquirer: IntegrationFactors, target: IntegrationFactors): (r: real)
    ensures r == 0.5 * TechStackScore(acquirer.techStack, target.techStack)
              + 0.3 * TeamCultureScore(acquirer.teamCulture, target.teamCulture)
              + 0.2 * ArchitectureScore(acquirer.productArchitecture, target.productArchitecture)
    ensures 0.0 <= r <= 92.0
    ensures r == 0.0 <==> acquirer == target
    ensures r == 92.0 <==>
              && acquirer.techStack * target.techStack == {} && acquirer.techStack + target.techStack != {}
              && acquirer.teamCulture != target.teamCulture
              && {acquirer.teamCulture, target.teamCulture} == {"agile", "hierarchical"}
              && acquirer.productArchitecture != target.productArchitecture
              && {acquirer.productArchitecture, target.productArchitecture} == {"microservices", "monolith"}
  {
    var tech := TechStackScore(acquirer.techStack, target.techStack);
    var culture := TeamCultureScore(acquirer.teamCulture, target.teamCulture);
    var arch := ArchitectureScore(acquirer.productArchitecture, target.productArchitecture);
    tech * TechStackWeight + culture * TeamCultureWeight + arch * ArchitectureWeight
  }

  /** The reported score, rounded to cents: within [0, 92], and zero for identical profiles. */
  function CalculateScore(acquirer: IntegrationFactors, target: IntegrationFactors): (r: real)
    ensures WholeCents(r)
    ensures 0.0 <= r <= 92.0
    ensures acquirer == target ==> r == 0.0
    ensures -0.005 <= r - WeightedScore(acquirer, target) <= 0.005
  {
    var w := WeightedScore(acquirer, target);
    Round2Within(w, 0, 9200);
    Round2Exact(0);
    Round2(w)
  }

  /** Intersection and union are symmetric, so the tech-stack score is too. */
  lemma TechStackSymmetric(a: set<string>, b: set<string>)
    ensures TechStackScore(a, b) == TechStackScore(b, a)
  {
    assert a * b == b * a;
    assert a + b == b + a;
  }

  /** Swapping acquirer and target does not change the score. */
  lemma CalculateScoreSymmetric(a: IntegrationFactors, b: IntegrationFactors)
    ensures CalculateScore(a, b) == CalculateScore(b, a)
  {
    TeamCultureSymmetric(a.teamCulture, b.teamCulture);
    TechStackSymmetric(a.techStack, b.techStack);
    assert ArchitectureScore(a.productArchitecture, b.productArchitecture)
        == ArchitectureScore(b.productArchitecture, a.productArchitecture);
  }
}

=== FILE: records.dfy ===
/**
 * The records the pipeline works on: target companies, acquirers and the
 * valuation details attached to a company each step. Only the fields the
 * decision pipeline reads are kept; the descriptive metric bags are not.
 */
module Records {
  import opened Wrappers

  /** A party's integration profile. `techStack` is the set the scorer builds from the list. */
  datatype IntegrationFactors = IntegrationFactors(
    techStack: set<string>,
    teamCulture: string,
    productArchitecture: string)

  /**
   * The acquirer's variant, fixed at creation. `Other` is an acquirer whose
   * type string is neither "Strategic" nor "Financial", which the base
   * acquirer class permits; nothing reads that string, so it is not kept.
   */
  datatype AcquirerKind =
    | Strategic(factors: IntegrationFactors, needs: set<string>)
    | Financial
    | Other

  datatype Acquirer = Acquirer(name: string, focus: seq<string>, kind: AcquirerKind)

  /** What a valuation reports for auditability; every field but the sentiment is rounded to cents. */
  datatype ValuationDetails = ValuationDetails(
    valuation: real,
    baseMultiplier: real,
    growthAdjustment: real,
    sentimentAdjustment: real,
    aiTalentPremium: real,
    finalMultiplier: real)

  /**
   * A target company. `id` stands for the identity of the Python record;
   * `valuation` is absent until the first revaluation.
   */
  datatype Company = Company(
    id: nat,
    name: string,
    sector: string,
    arr: real,
    growthRate: real,
    ebitdaMargin: real,
    aiMlExperts: int,
    assets: set<string>,
    factors: IntegrationFactors,
    valuation: Option<ValuationDetails>)
}

=== FILE: regulatory.dfy ===
/** Regulatory review: only a large deal in a sensitive sector is reviewed, and may then be blocked. */
module Regulatory {
  import opened Draws
  import opened Deals

  datatype Config = Config(blockProbability: real, reviewThreshold: real)

  /** The engine's configuration: a 15% block probability and a 5,000,000,000 review threshold. */
  const DefaultConfig: Config := Config(0.15, 5000000000.0)

  /** Sectors that draw scrutiny; membership is exact equality with a list entry. */
  const SensitiveSectors: seq<string> := ["AI", "Infrastructure", "Cybersecurity"]

  datatype Verdict = Approved | Blocked

  datatype Reason =
    | BelowReviewCriteria
    | MarketConcentration(sector: string)
    | PassedReview

  /** A deal is reviewed only when it is both sensitive and strictly above the threshold. */
  predicate UnderReview(cfg: Config, deal: Deal)
  {
    deal.target.sector in SensitiveSectors && deal.finalPrice > cfg.reviewThreshold
  }

  /** `RegulatoryEngine.review_deal`; `roll` is consumed only by a reviewed deal. */
  function ReviewDeal(cfg: Config, deal: Deal, roll: Unit): (r: (Verdict, Reason))
    ensures r.0 == Blocked <==> UnderReview(cfg, deal) && roll < cfg.blockProbability
    ensures !UnderReview(cfg, deal) ==> r == (Approved, BelowReviewCriteria)
    ensures r.0 == Blocked ==> r.1 == MarketConcentration(deal.target.sector)
    ensures UnderReview(cfg, deal) && r.0 == Approved ==> r.1 == PassedReview
  {
    var isSensitive := deal.target.sector in SensitiveSectors;
    var isLarge := deal.finalPrice > cfg.reviewThreshold;
    if !(isLarge && isSensitive) then (Approved, BelowReviewCriteria)
    else if roll < cfg.blockProbability then (Blocked, MarketConcentration(deal.target.sector))
    else (Approved, PassedReview)
  }

  /** A deal that is not reviewed gets the same verdict whatever the draw: the draw is not used. */
  lemma UnreviewedIgnoresDraw(cfg: Config, deal: Deal, roll1: Unit, roll2: Unit)
    requires !UnderReview(cfg, deal)
    ensures ReviewDeal(cfg, deal, roll1) == ReviewDeal(cfg, deal, roll2)
  {
  }

  /** "Large" is strict: a price equal to the threshold is approved without review. */
  lemma ThresholdIsStrict(cfg: Config, deal: Deal, roll: Unit)
    requires deal.finalPrice == cfg.reviewThreshold
    ensures ReviewDeal(cfg, deal, roll) == (Approved, BelowReviewCriteria)
  {
  }

  /** With block probability zero (or below) every deal is approved. */
  lemma ZeroProbabilityApprovesAll(cfg: Config, deal: Deal, roll: Unit)
    requires cfg.blockProbability <= 0.0
    ensures ReviewDeal(cfg, deal, roll).0 == Approved
  {
  }

  /** A "SaaS" deal of 6,000,000,000 is approved under the defaults, whatever the draw. */
  lemma InsensitiveSectorApproved(deal: Deal, roll: Unit)
    requires deal.target.sector == "SaaS" && deal.finalPrice == 6000000000.0
    ensures ReviewDeal(DefaultConfig, deal, roll) == (Approved, BelowReviewCriteria)
  {
    assert "SaaS" !in SensitiveSectors;
  }
}

=== FILE: rounding.dfy ===
/**
 * Python's `round(x, 2)`, taken on the exact real value: the nearest
 * multiple of 0.01, ties to the even neighbour.
 */
module Rounding {

  /** The nearest integer to `y`; an exact tie goes to the even integer. */
  function RoundHalfEven(y: real): (n: int)
    ensures -0.5 <= n as real - y <= 0.5
    ensures n as real - y == 0.5 || y - n as real == 0.5 ==> n % 2 == 0
  {
    var f := y.Floor;
    var frac := y - f as real;
    if frac < 0.5 then f
    else if frac > 0.5 then f + 1
    else if f % 2 == 0 then f
    else f + 1
  }

  /** `x` is a whole number of cents. */
  predicate WholeCents(x: real)
  {
    (x * 100.0).Floor as real == x * 100.0
  }

  /** `round(x, 2)`: a whole number of cents, within half a cent of `x`. */
  function Round2(x: real): (r: real)
    ensures -0.005 <= r - x <= 0.005
    ensures WholeCents(r)
  {
    var n := RoundHalfEven(x * 100.0);
    assert (n as real / 100.0) * 100.0 == n as real;
    n as real / 100.0
  }

  /** The distance of `x` from zero. */
  function Abs(x: real): real
  {
    if x < 0.0 then -x else x
  }

  /** No integer is closer to `y` than the rounded one. */
  lemma RoundHalfEvenNearest(y: real, k: int)
    ensures Abs(RoundHalfEven(y) as real - y) <= Abs(k as real - y)
  {
    var f := y.Floor;
    if k <= f {
      assert Abs(k as real - y) >= y - f as real;
    } else {
      assert Abs(k as real - y) >= f as real + 1.0 - y;
    }
  }

  /** No whole number of cents is closer to `x` than `round(x, 2)`. */
  lemma Round2Nearest(x: real, k: int)
    ensures Abs(Round2(x) - x) <= Abs(k as real / 100.0 - x)
  {
    var y := x * 100.0;
    var n := RoundHalfEven(y);
    RoundHalfEvenNearest(y, k);
    assert Round2(x) - x == (n as real - y) / 100.0;
    assert k as real / 100.0 - x == (k as real - y) / 100.0;
  }

  lemma FloorMonotone(y: real, z: real)
    requires y <= z
    ensures y.Floor <= z.Floor
  {
  }

  lemma RoundHalfEvenMonotone(y: real, z: real)
    requires y <= z
    ensures RoundHalfEven(y) <= RoundHalfEven(z)
  {
    FloorMonotone(y, z);
    if y.Floor < z.Floor {
      assert RoundHalfEven(y) <= y.Floor + 1 <= z.Floor <= RoundHalfEven(z);
    }
  }

  /** Rounding never reverses an order. */
  lemma Round2Monotone(x: real, y: real)
    requires x <= y
    ensures Round2(x) <= Round2(y)
  {
    RoundHalfEvenMonotone(x * 100.0, y * 100.0);
  }

  /** A whole number of cents is left as it is. */
  lemma Round2Exact(k: int)
    ensures Round2(k as real / 100.0) == k as real / 100.0
  {
    assert (k as real / 100.0) * 100.0 == k as real;
    assert (k as real).Floor == k;
  }

  /** Bounds that are whole numbers of cents survive rounding. */
  lemma Round2Within(x: real, lo: int, hi: int)
    requires lo as real / 100.0 <= x <= hi as real / 100.0
    ensures lo as real / 100.0 <= Round2(x) <= hi as real / 100.0
  {
    Round2Monotone(lo as real / 100.0, x);
    Round2Monotone(x, hi as real / 100.0);
    Round2Exact(lo);
    Round2Exact(hi);
  }
}

=== FILE: synergy.dfy ===
/** Strategic fit: how many of a strategic acquirer's needs the target's assets meet. */
module Synergy {
  import opened Arithmetic
  import opened Wrappers
  import opened Draws
  import opened Rounding
  import opened Records

  /**
   * Score and premium, both rounded to cents; `matchedAssets` is absent when
   * the source returns the short form without that key.
   */
  datatype SynergyDetails = SynergyDetails(score: real, premium: real, matchedAssets: Option<set<string>>)

  /** The short result for a non-strategic acquirer or a target that meets no need. */
  const NoSynergy: SynergyDetails := SynergyDetails(0.0, 0.0, None)

  /** The fraction of the acquirer's needs the assets meet; zero when none is met. */
  function MatchRatio(needs: set<string>, assets: set<string>): (r: real)
    ensures 0.0 <= r <= 1.0
    ensures r == 0.0 <==> needs * assets == {}
    ensures r == 1.0 <==> needs != {} && needs <= assets
  {
    var matches := needs * assets;
    if matches == {} then 0.0
    else
      assert matches <= needs;
      SubsetCardinality(matches, needs);
      var r := |matches| as real / |needs| as real;
      FractionAtMostOne(|matches|, |needs|);
      QuotientIsOne(|matches| as real, |needs| as real);
      assert |matches| == |needs| <==> needs <= assets by {
        if |matches| == |needs| {
          assert matches == needs;
        }
        if needs <= assets {
          assert matches == needs;
        }
      }
      r
  }

  lemma FractionAtMostOne(a: nat, b: nat)
    requires 0 < a <= b
    ensures 0.0 < a as real / b as real <= 1.0
  {
    QuotientMonotone(a as real, b as real, b as real);
    QuotientIsOne(b as real, b as real);
    var q := a as real / b as real;
    assert q * b as real == a as real;
    if q <= 0.0 {
      NonNegativeProduct(-q, b as real);
    }
  }

  /** `Synergy.calculate_synergy`; the draw scales the premium and is consumed only when needs are met. */
  function CalculateSynergy(acquirer: Acquirer, target: Company, u: Unit): (s: SynergyDetails)
    ensures 0.0 <= s.score <= 1.0
    ensures 0.0 <= s.premium <= 0.4
    ensures !acquirer.kind.Strategic? ==> s == NoSynergy
    ensures acquirer.kind.Strategic? && acquirer.kind.needs * target.assets == {} ==> s == NoSynergy
    ensures s.matchedAssets.Some? <==> acquirer.kind.Strategic? && acquirer.kind.needs * target.assets != {}
    ensures s.matchedAssets.Some? ==> s.matchedAssets.value == acquirer.kind.needs * target.assets
    ensures s.score > 0.0 ==> s.matchedAssets.Some?
    ensures s.matchedAssets.Some? ==>
              var ratio := MatchRatio(acquirer.kind.needs, target.assets);
              0.2 * ratio - 0.005 <= s.premium <= 0.4 * ratio + 0.005
  {
    match acquirer.kind
    case Strategic(_, needs) =>
      var matches := needs * target.assets;
      if matches == {} then NoSynergy
      else
        var ratio := MatchRatio(needs, target.assets);
        var scale := Uniform(0.2, 0.4, u);
        var premium := Premium(ratio, scale);
        Round2Within(ratio, 0, 100);
        Round2Within(premium, 0, 40);
        SynergyDetails(Round2(ratio), Round2(premium), Some(matches))
    case _ => NoSynergy
  }

  /** The reported score and premium are whole numbers of cents. */
  lemma SynergyInCents(acquirer: Acquirer, target: Company, u: Unit)
    ensures WholeCents(CalculateSynergy(acquirer, target, u).score)
    ensures WholeCents(CalculateSynergy(acquirer, target, u).premium)
  {
  }

  /** The unrounded premium: the match ratio scaled by a draw from [0.2, 0.4]. */
  function Premium(ratio: real, scale: real): (r: real)
    requires 0.0 <= ratio <= 1.0 && 0.2 <= scale <= 0.4
    ensures 0.2 * ratio <= r <= 0.4 * ratio
  {
    PremiumBounds(ratio, scale);
    ratio * scale
  }

  lemma PremiumBounds(ratio: real, scale: real)
    requires 0.0 <= ratio <= 1.0 && 0.2 <= scale <= 0.4
    ensures 0.2 * ratio <= ratio * scale <= 0.4 * ratio
  {
    NonNegativeProduct(ratio, scale - 0.2);
    NonNegativeProduct(ratio, 0.4 - scale);
  }

  /** With needs met, the premium is the rounded match ratio times the draw from [0.2, 0.4). */
  lemma PremiumIsScaledRatio(acquirer: Acquirer, target: Company, u: Unit)
    requires acquirer.kind.Strategic? && acquirer.kind.needs * target.assets != {}
    ensures CalculateSynergy(acquirer, target, u).premium
         == Round2(Premium(MatchRatio(acquirer.kind.needs, target.assets), Uniform(0.2, 0.4, u)))
  {
  }

  /** The reported score is the rounded ratio of met needs; the premium draw does not affect it. */
  lemma ScoreIsMatchRatio(acquirer: Acquirer, target: Company, u: Unit)
    requires acquirer.kind.Strategic?
    ensures CalculateSynergy(acquirer, target, u).score == Round2(MatchRatio(acquirer.kind.needs, target.assets))
  {
    Round2Exact(0);
  }

  /** A full match of a nonempty need set scores exactly 1. */
  lemma FullMatchScoresOne(acquirer: Acquirer, target: Company, u: Unit)
    requires acquirer.kind.Strategic? && acquirer.kind.needs != {} && acquirer.kind.needs <= target.assets
    ensures CalculateSynergy(acquirer, target, u).score == 1.0
    ensures CalculateSynergy(acquirer, target, u).matchedAssets == Some(acquirer.kind.needs)
  {
    Round2Exact(100);
    assert acquirer.kind.needs * target.assets == acquirer.kind.needs;
  }

  /** Adding an asset to the target never lowers the score, whatever the premium draws. */
  lemma ScoreMonotoneInAssets(acquirer: Acquirer, target: Company, asset: string, u: Unit, u': Unit)
    ensures CalculateSynergy(acquirer, target, u).score
         <= CalculateSynergy(acquirer, target.(assets := target.assets + {asset}), u').score
  {
    if acquirer.kind.Strategic? {
      var needs := acquirer.kind.needs;
      var more := target.assets + {asset};
      ScoreIsMatchRatio(acquirer, target, u);
      ScoreIsMatchRatio(acquirer, target.(assets := more), u');
      RatioMonotone(needs, target.assets, more);
      Round2Monotone(MatchRatio(needs, target.assets), MatchRatio(needs, more));
    }
  }

  lemma RatioMonotone(needs: set<string>, assets: set<string>, more: set<string>)
    requires assets <= more
    ensures MatchRatio(needs, assets) <= MatchRatio(needs, more)
  {
    if needs * assets != {} {
      var small, large := needs * assets, needs * more;
      assert small <= large;
      SubsetCardinality(small, large);
      QuotientMonotone(|small| as real, |large| as real, |needs| as real);
    }
  }
}

=== FILE: valuation.dfy ===
/** The valuation engine: a revenue multiple adjusted for growth, sentiment and AI talent. */
module Valuation {
  import opened Arithmetic
  import opened Draws
  import opened Rounding
  import opened Records
  import opened Environment

  /** Revenue-multiple ranges of the listed sectors. */
  const SectorMultipliers: map<string, (real, real)> := map[
    "AI" := (20.0, 35.0),
    "Cybersecurity" := (18.0, 30.0),
    "SaaS" := (10.0, 20.0),
    "Infrastructure" := (12.0, 22.0),
    "Marketing Tech" := (8.0, 15.0),
    "Computer Vision" := (10.0, 18.0),
    "Large Language Model" := (30.0, 45.0),
    "Data Intelligence" := (20.0, 28.0)
  ]

  /** The range used for every sector the table does not list. */
  const DefaultMultiplierRange: (real, real) := (5.0, 12.0)

  /** The multiple range of a sector; exact equality on the sector name, with a default. */
  function MultiplierRange(sector: string): (r: (real, real))
    ensures 5.0 <= r.0 < r.1 <= 45.0
    ensures sector in SectorMultipliers ==> r == SectorMultipliers[sector]
    ensures sector !in SectorMultipliers ==> r == (5.0, 12.0)
  {
    if sector in SectorMultipliers then SectorMultipliers[sector] else DefaultMultiplierRange
  }

  /** The base multiple: a draw from the sector's range. */
  function BaseMultiplier(sector: string, u: Unit): (r: real)
    ensures MultiplierRange(sector).0 <= r < MultiplierRange(sector).1
    ensures 5.0 <= r < 45.0
  {
    var range := MultiplierRange(sector);
    Uniform(range.0, range.1, u)
  }

  datatype GrowthTier = HighGrowth | MediumGrowth | LowGrowth

  /** The growth tier: high above 20%, medium on [10%, 20%], low for everything below 10%. */
  function Tier(growthRate: real): (t: GrowthTier)
    ensures t == HighGrowth <==> growthRate > 0.20
    ensures t == MediumGrowth <==> 0.10 <= growthRate <= 0.20
    ensures t == LowGrowth <==> growthRate < 0.10
  {
    if growthRate > 0.20 then HighGrowth
    else if 0.10 <= growthRate <= 0.20 then MediumGrowth
    else LowGrowth
  }

  /** The growth-adjustment range of each tier. */
  function TierRange(t: GrowthTier): (r: (real, real))
    ensures 0.7 <= r.0 < r.1 <= 1.3
    ensures t == HighGrowth ==> r == (1.1, 1.3)
    ensures t == MediumGrowth ==> r == (0.9, 1.1)
    ensures t == LowGrowth ==> r == (0.7, 0.9)
  {
    match t
    case HighGrowth => (1.1, 1.3)
    case MediumGrowth => (0.9, 1.1)
    case LowGrowth => (0.7, 0.9)
  }

  /** The growth adjustment: a draw from the tier's range. */
  function GrowthAdjustment(growthRate: real, u: Unit): (r: real)
    ensures TierRange(Tier(growthRate)).0 <= r < TierRange(Tier(growthRate)).1
    ensures growthRate > 0.20 ==> 1.1 <= r
    ensures growthRate < 0.10 ==> r < 0.9
  {
    var range := TierRange(Tier(growthRate));
    Uniform(range.0, range.1, u)
  }

  /**
   * The tier ranges are adjacent and half-open, so a company in a higher
   * growth tier always gets a strictly larger adjustment, whatever the draws.
   */
  lemma GrowthAdjustmentOrdered(g1: real, g2: real, u1: Unit, u2: Unit)
    requires g1 < g2 && Tier(g1) != Tier(g2)
    ensures GrowthAdjustment(g1, u1) < GrowthAdjustment(g2, u2)
  {
  }

  /** More than 100 AI/ML experts earns a premium drawn from [10%, 30%); exactly 100 earns none. */
  function TalentPremium(aiMlExperts: int, u: Unit): (r: real)
    ensures aiMlExperts <= 100 ==> r == 0.0
    ensures aiMlExperts > 100 ==> 0.1 <= r < 0.3
  {
    if aiMlExperts > 100 then Uniform(0.1, 0.3, u) else 0.0
  }

  /** The draws one valuation consumes; `talent` is consumed only above the expert threshold. */
  datatype ValuationDraws = ValuationDraws(base: Unit, growth: Unit, talent: Unit)

  /** The reported factors before any rounding, from the four drawn or looked-up factors. */
  function Compose(arr: real, base: real, growth: real, sentiment: real, premium: real): (e: ValuationDetails)
    ensures e.baseMultiplier == base && e.growthAdjustment == growth
    ensures e.sentimentAdjustment == sentiment && e.aiTalentPremium == premium
    ensures e.valuation == arr * e.finalMultiplier
  {
    var multiplier := base * growth * sentiment;
    Associative(arr, multiplier, 1.0 + premium);
    ValuationDetails(arr * multiplier * (1.0 + premium), base, growth, sentiment, premium, multiplier * (1.0 + premium))
  }

  /** The valuation factors before any rounding. */
  function ExactValuation(c: Company, m: Market, d: ValuationDraws): (e: ValuationDetails)
    ensures MultiplierRange(c.sector).0 <= e.baseMultiplier < MultiplierRange(c.sector).1
    ensures TierRange(Tier(c.growthRate)).0 <= e.growthAdjustment < TierRange(Tier(c.growthRate)).1
    ensures e.sentimentAdjustment == SentimentMultiplier(m.sentiment)
    ensures e.aiTalentPremium == TalentPremium(c.aiMlExperts, d.talent)
  {
    Compose(
      c.arr,
      BaseMultiplier(c.sector, d.base),
      GrowthAdjustment(c.growthRate, d.growth),
      SentimentMultiplier(m.sentiment),
      TalentPremium(c.aiMlExperts, d.talent))
  }

  /** The reported details: every factor rounded to cents except the sentiment multiplier. */
  function CalculateValuation(c: Company, m: Market, d: ValuationDraws): (v: ValuationDetails)
    ensures var e := ExactValuation(c, m, d);
      && -0.005 <= v.valuation - e.valuation <= 0.005
      && -0.005 <= v.finalMultiplier - e.finalMultiplier <= 0.005
      && -0.005 <= v.baseMultiplier - e.baseMultiplier <= 0.005
      && -0.005 <= v.growthAdjustment - e.growthAdjustment <= 0.005
      && -0.005 <= v.aiTalentPremium - e.aiTalentPremium <= 0.005
    ensures && WholeCents(v.valuation) && WholeCents(v.finalMultiplier) && WholeCents(v.baseMultiplier)
            && WholeCents(v.growthAdjustment) && WholeCents(v.aiTalentPremium)
    ensures v.sentimentAdjustment == SentimentMultiplier(m.sentiment)
    ensures c.aiMlExperts <= 100 ==> v.aiTalentPremium == 0.0
    ensures c.arr >= 0.0 ==> v.valuation >= 0.0
  {
    var e := ExactValuation(c, m, d);
    assert c.arr >= 0.0 ==> Round2(e.valuation) >= 0.0 by {
      if c.arr >= 0.0 {
        ExactValuationFactors(c, m, d);
        NonNegativeProduct(c.arr, e.finalMultiplier);
        Round2Monotone(0.0, e.valuation);
        Round2Exact(0);
      }
    }
    ValuationDetails(
      Round2(e.valuation),
      Round2(e.baseMultiplier),
      Round2(e.growthAdjustment),
      e.sentimentAdjustment,
      Round2(e.aiTalentPremium),
      Round2(e.finalMultiplier))
  }

  /**
   * The valuation is ARR times the final multiplier, which includes the talent
   * premium, and that multiplier lies in [2.8, 91.26).
   */
  lemma ExactValuationFactors(c: Company, m: Market, d: ValuationDraws)
    ensures var e := ExactValuation(c, m, d);
      && e.valuation == c.arr * e.finalMultiplier
      && 2.8 <= e.finalMultiplier < 91.26
  {
    var base := BaseMultiplier(c.sector, d.base);
    var growth := GrowthAdjustment(c.growthRate, d.growth);
    var sentiment := SentimentMultiplier(m.sentiment);
    var premium := TalentPremium(c.aiMlExperts, d.talent);
    ComposeFactors(c.arr, base, growth, sentiment, premium);
  }

  lemma ComposeFactors(arr: real, base: real, growth: real, sentiment: real, premium: real)
    requires 5.0 <= base < 45.0 && 0.7 <= growth < 1.3
    requires 0.8 <= sentiment <= 1.2 && 0.0 <= premium < 0.3
    ensures var e := Compose(arr, base, growth, sentiment, premium);
      && e.finalMultiplier == e.baseMultiplier * e.growthAdjustment * e.sentimentAdjustment * (1.0 + e.aiTalentPremium)
      && e.valuation == arr * e.finalMultiplier
      && 2.8 <= e.finalMultiplier < 91.26
  {
    Associative(arr, base * growth * sentiment, 1.0 + premium);
    MultiplierBounds(base, growth, sentiment, premium);
  }

  /** The combined multiplier over the whole range of each factor. */
  lemma MultiplierBounds(base: real, growth: real, sentiment: real, premium: real)
    requires 5.0 <= base < 45.0 && 0.7 <= growth < 1.3
    requires 0.8 <= sentiment <= 1.2 && 0.0 <= premium < 0.3
    ensures 2.8 <= base * growth * sentiment * (1.0 + premium) < 91.26
  {
    ProductBounds(base, growth, 5.0, 45.0, 0.7, 1.3);
    ProductBounds(base * growth, sentiment, 3.5, 58.5, 0.8, 1.2);
    ProductBounds(base * growth * sentiment, 1.0 + premium, 2.8, 70.2, 1.0, 1.3);
  }

  /** Bounds of a product of two positive factors. */
  lemma ProductBounds(a: real, b: real, la: real, ha: real, lb: real, hb: real)
    requires 0.0 < la <= a && 0.0 < lb <= b
    requires a < ha && b <= hb
    ensures la * lb <= a * b < ha * hb
  {
    assert a * b - la * lb == (a - la) * b + la * (b - lb);
    NonNegativeProduct(a - la, b);
    NonNegativeProduct(la, b - lb);
    assert ha * hb - a * b == (ha - a) * hb + a * (hb - b);
    NonNegativeProduct(a, hb - b);
    assert (ha - a) * hb > 0.0;
  }

  /** With the same draws, a larger ARR never gives a smaller valuation. */
  lemma ValuationMonotoneInArr(c: Company, m: Market, d: ValuationDraws, arr1: real, arr2: real)
    requires arr1 <= arr2
    ensures CalculateValuation(c.(arr := arr1), m, d).valuation <= CalculateValuation(c.(arr := arr2), m, d).valuation
  {
    var e1 := ExactValuation(c.(arr := arr1), m, d);
    var e2 := ExactValuation(c.(arr := arr2), m, d);
    ExactValuationFactors(c.(arr := arr1), m, d);
    ExactValuationFactors(c.(arr := arr2), m, d);
    var f := e1.finalMultiplier;
    assert e2.finalMultiplier == f;
    ScaleMonotone(arr1, arr2, f);
    Round2Monotone(e1.valuation, e2.valuation);
    assert CalculateValuation(c.(arr := arr1), m, d).valuation == Round2(e1.valuation);
    assert CalculateValuation(c.(arr := arr2), m, d).valuation == Round2(e2.valuation);
  }
}

=== FILE: wrappers.dfy ===
/** Optional values, for the places where the source returns `None` or omits a key. */
module Wrappers {

  datatype Option<+T> = None | Some(value: T)
}
